=== FILE: README.md ===
# Portalis template migration, modelled in Dafny

`scripts/project_migration.py` rebrands the Portalis Flutter/Rust template
under a new project slug. It does four things:

- it checks the slug and derives an application title, a Pascal-case name and
  an Android/iOS bundle suffix from it;
- it finds the Flutter project directory and renames it to the slug, rewriting
  the paths it has already recorded as changed;
- it builds ordered lists of `(old, new)` text replacements, for the platform
  identifiers and for the whole repository;
- it walks a directory tree and, in every text file it selects, applies the
  replacements in order with `str.replace`, recording each file whose text
  changed.

This project models that logic over strings. A file tree is a map from
relative POSIX paths to file texts, and the changed list is a sequence of
paths. Python iterates sets and `rglob` in an unspecified order; here those
orders are parameters, constrained only to list each element once
(`Text.Enumerates`). Every property holds for every such order.

Modules:

- `Text`: ASCII case mapping, `strip`, `split`/`join`, and filtering.
- `Replace`: `str.replace`, including the empty needle and the count-1 form,
  plus ordered replacement lists.
- `WordReplace`: `re.sub(r"\bPortalis\b", ...)` as a left-to-right scan.
- `Names`: slug check, bundle suffix, title and Pascal name.
- `Changes`: `record_change`, `update_file`, and the rewrite of one recorded
  path on rename.
- `Selection`: `should_process`, `Path.suffix`, and `locate_flutter_dir`.
- `Migration`: the context, the rename, both replacement lists, and the tree
  walk.

The script's docstring says it can be rerun while iterating on names. Two
results pin down what that promise covers:

- `Migration.TreeRerunStable` proves it under a condition: a second walk
  changes nothing when the replacement list reaches a fixpoint on every
  selected file's rewritten text.
- `Migration.RerunGrowsSlug` shows that the condition can fail. Take the slug
  `portalis_app`. After the first run the directory already carries the slug,
  so the rerun's context again pairs the old name `portalis` with the slug.
  The text `portalis_app` written by the first run then becomes
  `portalis_app_app` on that rerun.
  `Migration.RerunGrows` states the general form of that one step: on such a
  rerun, the global list turns the slug's own text, where the slug extends an
  old name by a shorter tail, into the slug followed by the tail once more.
  Nothing here is claimed about the runs after that.

## Model

| member | source | states |
|---|---|---|
| Names.SanitizeBundleSuffix | scripts/project_migration.py:32-34 | the suffix is never empty and holds only `[a-z0-9]`; it is the fallback `app` when the name has no ASCII letter or digit, and otherwise the name's letters and digits in order, lower-cased |
| Names.IsValidSlug | scripts/project_migration.py:381 | an accepted slug is non-empty, holds no slash, and consists of word characters only, none of them whitespace |
| Names.ValidSlugNormal | scripts/project_migration.py:380-381 | an accepted slug is already lower-case and already stripped: lowering or stripping it again changes nothing |
| Names.SanitizeIdempotent | scripts/project_migration.py:32-34 | sanitising an already sanitised suffix gives it back unchanged |
| Names.SanitizeValidSlug | scripts/project_migration.py:381-387 | for a slug the script accepts, the bundle suffix is the slug with its underscores removed, and it starts with the slug's first letter |
| Text.Capitalize | scripts/project_migration.py:51 | the word keeps its length and, ignoring case, its letters; its first character is not lower-case and no later one is upper-case; characters other than letters and digits are kept |
| Names.Words | scripts/project_migration.py:50 | the words are non-empty and hold no `-` or `_`; run together, they are the slug with its separators removed |
| Names.WordsAreNonEmptyParts | scripts/project_migration.py:50-51 | the words are exactly the non-empty pieces of a split at every `-` and `_`, as `re.split` followed by the `if part` filter gives |
| Names.DeriveAppTitle | scripts/project_migration.py:49-51 | a slug made only of separators comes back unchanged; otherwise the title is non-empty and holds no separator |
| Names.TitleWords | scripts/project_migration.py:49-51 | for a blank-free slug with words, splitting the title at its blanks gives back the capitalised words, one piece per word |
| Names.DerivePascal | scripts/project_migration.py:54-56 | a slug made only of separators comes back unchanged; otherwise the Pascal name holds no separator and, ignoring case, spells the slug with its separators removed |
| Names.PascalIsTitleWithoutBlanks | scripts/project_migration.py:49-56 | for a blank-free slug, the Pascal name is the application title with its blanks removed |
| Names.PascalMatchesBundleSuffix | scripts/project_migration.py:54-56 | for an accepted slug, the lower-cased Pascal name is the bundle suffix |
| Text.Strip | scripts/project_migration.py:380 | the result neither starts nor ends with whitespace, and it is an infix of the input with only whitespace cut away on either side |
| WordReplace.ReplacePortalisWord | scripts/project_migration.py:59-60 | the text comes back unchanged exactly when it holds no whole-word `Portalis` or the replacement is `Portalis` itself |
| WordReplace.ReplaceSplitsAtNonWord | scripts/project_migration.py:20 | the pieces on either side of any non-word character are rewritten independently of each other |
| WordReplace.GluedWordKept | scripts/project_migration.py:20 | a run of word characters other than `Portalis` itself comes back unchanged, whatever the replacement |
| WordReplace.GluedOccurrencesKept | scripts/project_migration.py:20 | `Portalis` glued to a word character on either side (`PortalisX`, `xPortalis`, `Portalis_app`) is left intact |
| WordReplace.WholeWordReplaced | scripts/project_migration.py:20 | `Portalis` between a space and punctuation is replaced, and the text before it is handled on its own |
| Replace.ReplaceAll | scripts/project_migration.py:324 | `str.replace` leaves the text alone when the needle maps to itself or a non-empty needle is absent; a replacement no shorter than a non-empty needle never shortens the text, and one no longer never lengthens it |
| Replace.ReplaceAllAtLeftmost | scripts/project_migration.py:324 | for a non-empty needle, the text before its leftmost occurrence is kept, that occurrence becomes the replacement, and replacing continues after it; with `ReplaceAll`'s clause for an absent needle this fixes the result as every non-overlapping occurrence replaced, left to right |
| Replace.ReplaceFirst | scripts/project_migration.py:244 | when the text starts with the needle, the needle at the front is replaced and the rest is kept; a text without a non-empty needle is unchanged |
| Replace.ReplaceFirstInverse | scripts/project_migration.py:244 | moving a prefix with the count-1 replacement and moving it back restores the entry |
| Replace.ReplaceAllUnchangedIff | scripts/project_migration.py:324 | `str.replace` leaves the text unchanged exactly when the needle equals its replacement or does not occur (the empty needle occurs everywhere) |
| Replace.ApplyAllConcat | scripts/project_migration.py:322-325 | applying a concatenated list of pairs means applying the first list, then the second |
| Replace.ApplyAll | scripts/project_migration.py:322-325 | a one-pair list is exactly `text.replace(old, new)` for that pair, and a text on which no pair's needle occurs, except pairs that map a needle to itself, is a fixpoint of the whole list; with ApplyAllConcat this fixes the result for every list as the pairs applied in order |
| Changes.RecordChange | scripts/project_migration.py:63-68 | the path is in the result, which holds the old entries plus the path; old entries keep their positions; at most one entry is added, none if the path was already there; no duplicate is introduced |
| Changes.UpdateFile | scripts/project_migration.py:71-78 | a missing file changes nothing; otherwise only that file gets the transformed text; its path is recorded exactly when the text changed; the list keeps its order and gains no duplicate |
| Changes.UpdateFileRerun | scripts/project_migration.py:71-78 | a second `update_file` with a transform that is idempotent on the file's text changes neither the tree nor the changed list |
| Changes.RenameEntry | scripts/project_migration.py:241-244 | an entry under the old directory or the default directory moves under the slug; if both prefixes match, the one tried last wins; any other entry is unchanged |
| Changes.RenameEntryOrderIrrelevant | scripts/project_migration.py:242 | for slash-free directory names, the unspecified iteration order of the two-name set does not change the result |
| Selection.Components | scripts/project_migration.py:303 | the parts of a path hold no `/`, and joining them with `/` gives back the path |
| Selection.Suffix | scripts/project_migration.py:307 | the suffix is empty, or it is a proper ending of the name that starts with its only dot and has at least one more character |
| Selection.SuffixOfExtension | scripts/project_migration.py:307 | a dotted extension behind a non-empty stem is the suffix of the name |
| Selection.ShouldProcess | scripts/project_migration.py:302-307 | a processed path has no component that is a skipped directory, and its suffix is a text extension |
| Selection.SpecialNamesHaveTextSuffix | scripts/project_migration.py:22-28 | every special file name already has a suffix among the text extensions |
| Selection.ShouldProcessByExtension | scripts/project_migration.py:302-307 | a path is processed exactly when none of its components is a skipped directory and its suffix is a text extension; the special-file rule adds nothing beyond that |
| Selection.SkippedDirWins | scripts/project_migration.py:303-304 | a file below a skipped directory is never processed, whatever its name |
| Selection.LexLessTransitive | scripts/project_migration.py:91 | the POSIX path order used by `sorted` (code-point order of the names) is transitive |
| Selection.LeastUnique | scripts/project_migration.py:90-96 | the first directory in sorted order is unique |
| Selection.LocateFlutterDir | scripts/project_migration.py:81-98 | the slug's directory wins, then `portalis`, then the least candidate in sorted order; the lookup fails, with the script's message, exactly when no directory holds `pubspec.yaml` |
| Migration.BuildContext | scripts/project_migration.py:380-399 | an unacceptable stripped slug fails with the script's message. Otherwise the lookup fails exactly when there is no project. On success the context is consistent: the title is the stripped given title, or the derived one when none is given; the bundle suffix is the slug without underscores; the current directory is one of the projects: the slug when the slug is one, otherwise `portalis` when that is one, otherwise the least project in sorted order; the previous names are `portalis` and the current name |
| Migration.NewContext | scripts/project_migration.py:386-398 | the context assembled from an accepted slug is consistent: its previous bundle suffixes are the suffixes of its previous names |
| Migration.RenameFlutterDirectory | scripts/project_migration.py:229-250 | no change when the directory already carries the slug; failure exactly when the slug is taken. Otherwise entries under the old name or the default name move under the slug, other entries stay, and the slug is appended unless already recorded. The old name joins the previous names and its bundle suffix the previous suffixes. The slug, title, Pascal name and bundle suffix are kept, and consistency is kept |
| Migration.RenamedListClean | scripts/project_migration.py:241-245 | after a rename, no recorded path is under the old directory, and none is under `portalis/` unless the slug is `portalis` |
| Migration.BundleIdInjective | scripts/project_migration.py:254 | distinct suffixes give distinct `com.example.` identifiers |
| Migration.OldBundles | scripts/project_migration.py:255 | every old bundle is `com.example.` followed by a previous suffix other than the current one; every such suffix yields one; no duplicate appears |
| Migration.NewBundleNotOld | scripts/project_migration.py:254-255 | the new bundle identifier is never among the old ones |
| Migration.BundleTriples | scripts/project_migration.py:258-261 | each old bundle contributes three consecutive pairs, in order: the bare identifier, `.RunnerTests`, then `.backend` |
| Migration.BundleTriplesNotIdentity | scripts/project_migration.py:258-261 | no bundle pair maps a needle to itself, so each one rewrites every text that contains its needle |
| Migration.PlatformReplacements | scripts/project_migration.py:253-262 | the list is the bundle triples followed by the `com.portalis.backend` pair; an identifier is an old bundle exactly when it is not the new one and comes from a previous suffix |
| Migration.NamePairs | scripts/project_migration.py:338-340 | each previous name contributes its own pair and then its upper-case pair, both mapped to the slug in the same case |
| Migration.GlobalReplacements | scripts/project_migration.py:330-348 | the list has three pairs more than two per previous name and three per old bundle. It starts with the two title pairs and ends with `portalis.app`. It maps every previous name to the slug and every old bundle to the new one |
| Migration.GlobalInStages | scripts/project_migration.py:330-350 | the global pairs act in four successive stages: titles, names, bundles, then `portalis.app` |
| Migration.Visit | scripts/project_migration.py:314-327 | a file that is not selected is passed over. A selected file gets the pairs applied in order, and no other file changes. The changed list keeps its entries in front and gains at most this file, exactly when its text changed |
| Migration.Walk | scripts/project_migration.py:314-327 | the walk keeps the set of files, leaves every file it does not visit as it was, and only appends to the changed list |
| Migration.ApplyInTree | scripts/project_migration.py:310-327 | an empty list changes nothing. Otherwise exactly the selected files below the base (never the script itself) get the pairs applied in order. The changed list gains exactly those whose text changed, keeps its old entries in front, and gains no duplicate. If every selected file is already a fixpoint, the state is unchanged |
| Migration.TreeRerunStable | scripts/project_migration.py:6-7 | when the pairs reach a fixpoint on every selected file's rewritten text, a second walk over the same tree changes nothing |
| Migration.RerunGrows | scripts/project_migration.py:338-340 | on a rerun whose previous names are an old name and a slug extending it by a shorter tail, the global list turns the slug's text into the slug followed by the tail once more |
| Migration.RerunGrowsSlug | scripts/project_migration.py:338-340 | with slug `portalis_app` on a rerun, the global list rewrites `portalis_app` to `portalis_app_app` |

## Left out

- Filesystem effects are not modelled: reading, writing, `exists`, `is_dir`, directory listings and `Path.resolve`. A file tree is a map from relative paths to texts, `rglob` is the order of its keys below a base, and the script's own path is compared as the relative path `scripts/project_migration.py`.
- Migration.RenameFlutterDirectory: the move of the directory's files to new keys in the tree is not modelled. Only the context and the changed list change, and the directories present at the root are given as a set.
- WordReplace.ReplacePortalisWord: the replacement text is inserted literally. `re.sub` would also expand backslash escapes and group references in it, which a title or slug could contain.
- Text: only ASCII is modelled in `lower`, `upper`, `capitalize`, `strip` and the regex classes `\w` and `\b`. Non-ASCII characters are left alone by the case mappings, are not word characters, and are not stripped.
- Python's iteration order over sets, and the order of `rglob`, are parameters constrained only to list each element once.
- `update_readmes`, `update_docs`, `update_tests_scripts`, `update_ci` and `update_flutter_package` are not modelled one by one. Each is a fixed sequence of `str.replace` calls and `replace_portalis_word` passed to `update_file`, and `Changes.UpdateFile`, `Replace` and `WordReplace` model those building blocks.
- The pubspec `re.sub(rf"^name:\s*{name}\b", ...)` in `update_flutter_package` is not modelled; it would need a multi-line regex engine.
- `update_platform_identifiers` is modelled only through its replacement list (`Migration.PlatformReplacements`). Its loop over the five platform directories is a composition of `Migration.ApplyInTree` calls. The AndroidManifest label and Gradle rewrites and the nested `update_package_dirs` are not modelled, because they are directory renames and single `str.replace` calls on files.
- `find_remaining_markers` is not modelled: it runs the external `rg` tool.
- Argument parsing with argparse, `main`'s sequencing and its printed report are not modelled; `Migration.BuildContext` takes the parsed `--slug` and `--app-title` values as parameters.
- Selection.LocateFlutterDir: path order and equality follow POSIX `pathlib`, which compares names by code point and case-sensitively. On Windows `pathlib` compares case-insensitively, so `sorted` and the candidate picked there can differ.
- `Path.relative_to(ROOT)` is not modelled: paths are already relative to the repository root.
- The Rust library, the shell provisioning scripts and the CI configuration of the repository are not part of this model.

=== FILE: changes.dfy ===
/** Change bookkeeping (scripts/project_migration.py): `record_change`,
    `update_file` over an abstract file tree, and the rewrite of recorded paths
    when the Flutter directory is renamed.  Paths are relative POSIX strings;
    the tree maps each existing file's path to its text. */
module Changes {
  import opened Text
  import opened Replace

  /** `record_change(changed, path)`: the list gains `path` at its end unless it
      already holds it. */
  function RecordChange(changed: seq<string>, path: string): (r: seq<string>)
    ensures path in r
    ensures forall x :: x in r <==> x in changed || x == path
    ensures |changed| <= |r| <= |changed| + 1 && r[..|changed|] == changed
    ensures path in changed ==> r == changed
    ensures path !in changed ==> r == changed + [path]
    ensures NoDup(changed) ==> NoDup(r)
  {
    if path in changed then changed else changed + [path]
  }

  /** The file tree and the list of changed paths. */
  datatype State = State(files: map<string, string>, changed: seq<string>)

  /** `update_file(path, transform, changed)`: a missing file is ignored; an
      existing one is rewritten, and its path recorded, only when the
      transform changes its text. */
  function UpdateFile(st: State, path: string, transform: string -> string): (r: State)
    ensures path !in st.files ==> r == st
    ensures r.files.Keys == st.files.Keys
    ensures forall p :: p in st.files && p != path ==> r.files[p] == st.files[p]
    ensures path in st.files ==> r.files[path] == transform(st.files[path])
    ensures forall p :: p in r.changed <==>
      p in st.changed || (p == path && path in st.files && transform(st.files[path]) != st.files[path])
    ensures |st.changed| <= |r.changed| <= |st.changed| + 1 && r.changed[..|st.changed|] == st.changed
    ensures NoDup(st.changed) ==> NoDup(r.changed)
    ensures path in st.files && transform(st.files[path]) == st.files[path] ==> r == st
  {
    if path !in st.files then st
    else
      var original := st.files[path];
      var updated := transform(original);
      if original != updated then State(st.files[path := updated], RecordChange(st.changed, path))
      else st
  }

  /** Rerunning `update_file` with a transform that is idempotent on the file's
      text changes nothing more: neither the tree nor the changed list. */
  lemma UpdateFileRerun(st: State, path: string, transform: string -> string)
    requires path in st.files ==> transform(transform(st.files[path])) == transform(st.files[path])
    ensures UpdateFile(UpdateFile(st, path, transform), path, transform) == UpdateFile(st, path, transform)
  {
  }

  /** One entry of the changed list after the directory rename: the names are
      tried in the order `first`, `second`, each against the original entry,
      and the last one whose `name/` prefixes the entry has that prefix
      replaced by `slug/` (`str.replace` with count 1). */
  function RenameEntry(entry: string, first: string, second: string, slug: string): (r: string)
    ensures StartsWith(entry, second + "/") ==> r == slug + "/" + entry[|second| + 1..]
    ensures !StartsWith(entry, second + "/") && StartsWith(entry, first + "/") ==>
      r == slug + "/" + entry[|first| + 1..]
    ensures !StartsWith(entry, first + "/") && !StartsWith(entry, second + "/") ==> r == entry
  {
    var afterFirst := if StartsWith(entry, first + "/") then ReplaceFirst(entry, first + "/", slug + "/") else entry;
    if StartsWith(entry, second + "/") then ReplaceFirst(entry, second + "/", slug + "/") else afterFirst
  }

  /** Two slash-free names that both prefix an entry with a slash are equal. */
  lemma PrefixNamesEqual(entry: string, a: string, b: string)
    requires '/' !in a && '/' !in b
    requires StartsWith(entry, a + "/") && StartsWith(entry, b + "/")
    ensures a == b
  {
    assert forall i :: 0 <= i < |a| ==> entry[i] == a[i];
    assert forall i :: 0 <= i < |b| ==> entry[i] == b[i];
    assert entry[|a|] == '/' && entry[|b|] == '/';
    assert |a| == |b|;
    assert a == entry[..|a|] == b;
  }

  /** The script iterates the set of the default name and the old name, whose order
      Python leaves open; for directory names, which hold no slash, the order
      does not matter. */
  lemma RenameEntryOrderIrrelevant(entry: string, a: string, b: string, slug: string)
    requires '/' !in a && '/' !in b
    ensures RenameEntry(entry, a, b, slug) == RenameEntry(entry, b, a, slug)
  {
    if StartsWith(entry, a + "/") && StartsWith(entry, b + "/") {
      PrefixNamesEqual(entry, a, b);
    }
  }
}

=== FILE: migration.dfy ===
/** The migration context and the steps that act on the whole tree
    (scripts/project_migration.py): building the context from the slug, the
    title and the project directories; renaming the Flutter directory; the
    replacement lists of `update_platform_identifiers` and
    `apply_global_replacements`; and the substitution walk of
    `apply_replacements_in_tree` over an abstract file tree. */
module Migration {
  import opened Wrappers
  import opened Text
  import opened Replace
  import opened Names
  import opened Changes
  import opened Selection

  /** The script's own path, which the walk never rewrites. */
  const SCRIPT_PATH: string := "scripts/project_migration.py"

  const SLUG_MESSAGE: string :=
    "--slug must start with a letter and contain only lowercase letters, digits, or underscores"

  function TargetExistsMessage(slug: string): (msg: string) {
    "Target directory '" + slug + "' already exists. Remove or rename it before running the migration."
  }

  /** The script's `Context`; the Flutter directory is its path relative to
      the repository root. */
  datatype Context = Context(
    slug: string,
    appTitle: string,
    pascalName: string,
    flutterDir: string,
    currentDirName: string,
    previousNames: set<string>,
    bundleSuffix: string,
    previousBundleSuffixes: set<string>)

  /** What holds of every context the script builds and renames: the slug is
      accepted, the Flutter directory is the current directory, directory
      names hold no slash, the default name is among the previous names, and
      the previous bundle suffixes are exactly those of the previous names. */
  ghost predicate Consistent(c: Context) {
    IsValidSlug(c.slug)
    && c.flutterDir == c.currentDirName
    && '/' !in c.currentDirName
    && DEFAULT_DIRNAME in c.previousNames
    && (forall n :: n in c.previousNames ==> '/' !in n)
    && c.bundleSuffix == SanitizeBundleSuffix(c.slug)
    && c.previousBundleSuffixes == SuffixesOf(c.previousNames)
  }

  /** The bundle suffixes of a set of names. */
  function SuffixesOf(names: set<string>): (suffixes: set<string>) {
    set n | n in names :: SanitizeBundleSuffix(n)
  }

  /** The context built in `parse_args`: the stripped slug is checked first,
      then the title is taken from the command line when one was given (and
      stripped) or derived from the slug, then the Flutter directory is
      located among `projects`, the root's directories holding
      `pubspec.yaml`. */
  method BuildContext(rawSlug: string, rawTitle: Option<string>, projects: seq<string>)
    returns (r: Result<Context>)
    requires forall k :: 0 <= k < |projects| ==> '/' !in projects[k]
    ensures !IsValidSlug(Strip(rawSlug)) ==> r == Err(SLUG_MESSAGE)
    ensures IsValidSlug(Strip(rawSlug)) ==> (r.Err? <==> projects == [])
    ensures IsValidSlug(Strip(rawSlug)) && r.Err? ==> r.msg == NOT_FOUND
    ensures r.Ok? ==> Consistent(r.value)
    ensures r.Ok? ==> r.value.slug == Strip(rawSlug)
    ensures r.Ok? ==>
      r.value.appTitle == (if rawTitle.Some? && rawTitle.value != [] then Strip(rawTitle.value) else DeriveAppTitle(r.value.slug))
    ensures r.Ok? ==> r.value.pascalName == DerivePascal(r.value.slug)
    ensures r.Ok? ==> r.value.bundleSuffix == Keep(r.value.slug, IsNotUnderscore)
    ensures r.Ok? ==> r.value.currentDirName in projects
    ensures r.Ok? && r.value.slug in projects ==> r.value.currentDirName == r.value.slug
    ensures IsValidSlug(Strip(rawSlug)) && Strip(rawSlug) !in projects && DEFAULT_DIRNAME in projects ==>
      r.Ok? && r.value.currentDirName == DEFAULT_DIRNAME
    ensures IsValidSlug(Strip(rawSlug)) && Strip(rawSlug) !in projects && DEFAULT_DIRNAME !in projects && projects != [] ==>
      r.Ok? && IsLeast(r.value.currentDirName, projects)
    ensures r.Ok? ==> r.value.previousNames == {DEFAULT_DIRNAME, r.value.currentDirName}
  {
    var slug := Strip(rawSlug);
    if !IsValidSlug(slug) {
      return Err(SLUG_MESSAGE);
    }
    var title := if rawTitle.Some? && rawTitle.value != [] then Strip(rawTitle.value) else DeriveAppTitle(slug);
    var located := LocateFlutterDir(slug, projects);
    if located.Err? {
      return Err(located.msg);
    }
    return Ok(NewContext(slug, title, located.value));
  }

  /** The context for an accepted slug, a title and the located directory. */
  function NewContext(slug: string, title: string, current: string): (c: Context)
    requires IsValidSlug(slug) && '/' !in current
    ensures Consistent(c)
    ensures c.slug == slug && c.appTitle == title && c.pascalName == DerivePascal(slug)
    ensures c.currentDirName == current && c.previousNames == {DEFAULT_DIRNAME, current}
    ensures c.bundleSuffix == Keep(slug, IsNotUnderscore)
  {
    DefaultHasNoSlash();
    ContextWith(slug, title, current, DEFAULT_DIRNAME)
  }

  function ContextWith(slug: string, title: string, current: string, default: string): (c: Context)
    requires IsValidSlug(slug) && '/' !in current && '/' !in default
    ensures c.slug == slug && c.appTitle == title && c.pascalName == DerivePascal(slug)
    ensures c.flutterDir == current && c.currentDirName == current && c.previousNames == {default, current}
    ensures c.bundleSuffix == Keep(slug, IsNotUnderscore) && c.bundleSuffix == SanitizeBundleSuffix(slug)
    ensures c.previousBundleSuffixes == SuffixesOf(c.previousNames)
    ensures forall n :: n in c.previousNames ==> '/' !in n
  {
    SanitizeValidSlug(slug);
    PairHasNoSlash(default, current);
    var names := {default, current};
    Context(slug, title, DerivePascal(slug), current, current, names,
            SanitizeBundleSuffix(slug), SuffixesOf(names))
  }

  lemma DefaultHasNoSlash()
    ensures '/' !in DEFAULT_DIRNAME
  {
  }

  lemma PairHasNoSlash(a: string, b: string)
    requires '/' !in a && '/' !in b
    ensures forall n :: n in {a, b} ==> '/' !in n
  {
  }

  lemma SuffixesOfAdd(names: set<string>, n: string)
    ensures SuffixesOf(names + {n}) == SuffixesOf(names) + {SanitizeBundleSuffix(n)}
  {
  }

  /** The changed list after the directory rename, before the new directory is
      recorded. */
  function RenameEntries(changed: seq<string>, oldName: string, slug: string): (r: seq<string>)
    ensures |r| == |changed|
    ensures forall i :: 0 <= i < |changed| ==> r[i] == RenameEntry(changed[i], DEFAULT_DIRNAME, oldName, slug)
  {
    seq(|changed|, i requires 0 <= i < |changed| => RenameEntry(changed[i], DEFAULT_DIRNAME, oldName, slug))
  }

  /** `rename_flutter_directory`.  `rootEntries` names what exists at the root.
      Nothing happens when the directory already carries the slug; the rename
      is refused when the slug is taken; otherwise recorded paths under the
      default or the old directory move under the slug, the slug itself is
      recorded, and the old name joins the previous names. */
  function RenameFlutterDirectory(c: Context, changed: seq<string>, rootEntries: set<string>)
    : (r: Result<(Context, seq<string>)>)
    ensures c.currentDirName == c.slug ==> r == Ok((c, changed))
    ensures c.currentDirName != c.slug ==> (r.Err? <==> c.slug in rootEntries)
    ensures r.Err? ==> r.msg == TargetExistsMessage(c.slug)
    ensures r.Ok? ==>
      r.value.0.slug == c.slug && r.value.0.appTitle == c.appTitle
      && r.value.0.pascalName == c.pascalName && r.value.0.bundleSuffix == c.bundleSuffix
    ensures r.Ok? && c.currentDirName != c.slug && |r.value.1| > |changed| ==> r.value.1[|changed|] == c.slug
    ensures r.Ok? && c.currentDirName != c.slug ==>
      r.value.0.previousBundleSuffixes == c.previousBundleSuffixes + {SanitizeBundleSuffix(c.currentDirName)}
    ensures r.Ok? && c.currentDirName != c.slug ==>
      r.value.0.currentDirName == c.slug && r.value.0.flutterDir == c.slug
      && r.value.0.previousNames == c.previousNames + {c.currentDirName}
    ensures r.Ok? && c.currentDirName != c.slug ==>
      var out := r.value.1;
      c.slug in out && |changed| <= |out| <= |changed| + 1
      && (forall i :: 0 <= i < |changed| && StartsWith(changed[i], c.currentDirName + "/") ==>
            out[i] == c.slug + "/" + changed[i][|c.currentDirName| + 1..])
      && (forall i :: (0 <= i < |changed| && !StartsWith(changed[i], c.currentDirName + "/")
                       && StartsWith(changed[i], DEFAULT_DIRNAME + "/")) ==>
            out[i] == c.slug + "/" + changed[i][|DEFAULT_DIRNAME| + 1..])
      && (forall i :: (0 <= i < |changed| && !StartsWith(changed[i], c.currentDirName + "/")
                       && !StartsWith(changed[i], DEFAULT_DIRNAME + "/")) ==> out[i] == changed[i])
    ensures Consistent(c) && r.Ok? ==> Consistent(r.value.0)
  {
    if c.currentDirName == c.slug then Ok((c, changed))
    else if c.slug in rootEntries then Err(TargetExistsMessage(c.slug))
    else
      var oldName := c.currentDirName;
      var entries := RecordChange(RenameEntries(changed, oldName, c.slug), c.slug);
      var names := c.previousNames + {oldName};
      var suffixes := c.previousBundleSuffixes + {SanitizeBundleSuffix(oldName)};
      var c' := c.(previousNames := names, previousBundleSuffixes := suffixes,
                   flutterDir := c.slug, currentDirName := c.slug);
      RenameKeepsConsistent(c, c');
      Ok((c', entries))
  }

  lemma RenameKeepsConsistent(c: Context, c': Context)
    requires c' == c.(previousNames := c.previousNames + {c.currentDirName},
                      previousBundleSuffixes := c.previousBundleSuffixes + {SanitizeBundleSuffix(c.currentDirName)},
                      flutterDir := c.slug, currentDirName := c.slug)
    ensures Consistent(c) ==> Consistent(c')
  {
    if Consistent(c) {
      SuffixesOfAdd(c.previousNames, c.currentDirName);
    }
  }

  /** After the rename no recorded path is left under the old directory, and,
      unless the slug is the default name, none under `portalis/` either. */
  lemma RenamedListClean(c: Context, changed: seq<string>, rootEntries: set<string>)
    requires Consistent(c) && c.currentDirName != c.slug && c.slug !in rootEntries
    ensures RenameFlutterDirectory(c, changed, rootEntries).Ok?
    ensures forall x :: x in RenameFlutterDirectory(c, changed, rootEntries).value.1 ==>
      !StartsWith(x, c.currentDirName + "/")
      && (c.slug != DEFAULT_DIRNAME ==> !StartsWith(x, DEFAULT_DIRNAME + "/"))
  {
    var out := RenameFlutterDirectory(c, changed, rootEntries).value.1;
    var renamed := RenameEntries(changed, c.currentDirName, c.slug);
    forall x | x in out
      ensures !StartsWith(x, c.currentDirName + "/")
      ensures c.slug != DEFAULT_DIRNAME ==> !StartsWith(x, DEFAULT_DIRNAME + "/")
    {
      NotUnderSlashFree(c.slug, c.currentDirName);
      NotUnderSlashFree(c.slug, DEFAULT_DIRNAME);
      if x != c.slug {
        var i :| 0 <= i < |renamed| && renamed[i] == x;
        var e := changed[i];
        if StartsWith(e, c.currentDirName + "/") || StartsWith(e, DEFAULT_DIRNAME + "/") {
          var rest := if StartsWith(e, c.currentDirName + "/") then e[|c.currentDirName| + 1..]
                      else e[|DEFAULT_DIRNAME| + 1..];
          assert x == c.slug + "/" + rest;
          UnderSlug(c.slug, rest, c.currentDirName);
          UnderSlug(c.slug, rest, DEFAULT_DIRNAME);
        }
      }
    }
  }

  /** A slash-free name does not start with `n/`. */
  lemma NotUnderSlashFree(s: string, n: string)
    requires '/' !in s
    ensures !StartsWith(s, n + "/")
  {
    if |n| + 1 <= |s| {
      assert s[|n|] != '/';
      assert s[..|n| + 1][|n|] == s[|n|];
      assert (n + "/")[|n|] == '/';
    }
  }

  /** `slug/rest` starts with `n/` only for `n` equal to the slug. */
  lemma UnderSlug(slug: string, rest: string, n: string)
    requires '/' !in slug && '/' !in n
    ensures StartsWith(slug + "/" + rest, n + "/") ==> n == slug
  {
    var x := slug + "/" + rest;
    if StartsWith(x, n + "/") {
      assert StartsWith(x, slug + "/") by {
        assert x[..|slug| + 1] == slug + "/";
      }
      PrefixNamesEqual(x, n, slug);
    }
  }

  /** `com.example.<suffix>`. */
  function BundleId(suffix: string): (b: string)
    ensures StartsWith(b, "com.example.") && b[12..] == suffix
  {
    "com.example." + suffix
  }

  /** Distinct suffixes give distinct bundle identifiers. */
  lemma BundleIdInjective(a: string, b: string)
    ensures BundleId(a) == BundleId(b) <==> a == b
  {
    if BundleId(a) == BundleId(b) {
      assert BundleId(a)[12..] == BundleId(b)[12..];
    }
  }

  /** The old bundles: one identifier per previous suffix, in iteration order,
      the current suffix dropped. */
  function OldBundles(suffixOrder: seq<string>, current: string): (r: seq<string>)
    ensures |r| <= |suffixOrder|
    ensures forall k :: 0 <= k < |r| ==>
      StartsWith(r[k], "com.example.") && r[k][12..] in suffixOrder && r[k][12..] != current
    ensures forall s :: s in suffixOrder && s != current ==> BundleId(s) in r
    ensures NoDup(suffixOrder) ==> NoDup(r)
  {
    if suffixOrder == [] then []
    else
      var rest := OldBundles(suffixOrder[1..], current);
      if suffixOrder[0] == current then rest
      else
        forall k | 0 <= k < |rest| ensures rest[k] != BundleId(suffixOrder[0]) || !NoDup(suffixOrder) {
          if NoDup(suffixOrder) {
            assert rest[k][12..] in suffixOrder[1..];
          }
        }
        [BundleId(suffixOrder[0])] + rest
  }

  /** The new bundle is never among the old ones. */
  lemma NewBundleNotOld(suffixOrder: seq<string>, current: string)
    ensures BundleId(current) !in OldBundles(suffixOrder, current)
  {
    var olds := OldBundles(suffixOrder, current);
    forall k | 0 <= k < |olds| ensures olds[k] != BundleId(current) {
      assert olds[k][12..] != current;
    }
  }

  /** For every old bundle, its three pairs in the script's order: the bare
      identifier, then `.RunnerTests`, then `.backend`. */
  function BundleTriples(olds: seq<string>, newBundle: string): (r: seq<Subst>)
    ensures |r| == 3 * |olds|
    ensures forall k :: 0 <= k < |olds| ==>
      r[3 * k] == Subst(olds[k], newBundle)
      && r[3 * k + 1] == Subst(olds[k] + ".RunnerTests", newBundle + ".RunnerTests")
      && r[3 * k + 2] == Subst(olds[k] + ".backend", newBundle + ".backend")
  {
    if olds == [] then []
    else
      [Subst(olds[0], newBundle),
       Subst(olds[0] + ".RunnerTests", newBundle + ".RunnerTests"),
       Subst(olds[0] + ".backend", newBundle + ".backend")]
      + BundleTriples(olds[1..], newBundle)
  }

  /** Every pair built from an old bundle and the new one really changes text:
      none maps a needle to itself. */
  lemma BundleTriplesNotIdentity(suffixOrder: seq<string>, current: string)
    ensures var triples := BundleTriples(OldBundles(suffixOrder, current), BundleId(current));
      forall i :: 0 <= i < |triples| ==> triples[i].needle != triples[i].rep
  {
    NewBundleNotOld(suffixOrder, current);
    TriplesNoIdentity(OldBundles(suffixOrder, current), BundleId(current));
  }

  lemma {:induction false} TriplesNoIdentity(olds: seq<string>, nb: string)
    requires nb !in olds
    ensures forall i :: 0 <= i < |BundleTriples(olds, nb)| ==>
      BundleTriples(olds, nb)[i].needle != BundleTriples(olds, nb)[i].rep
    decreases |olds|
  {
    if olds != [] {
      var t := BundleTriples(olds, nb);
      var rest := BundleTriples(olds[1..], nb);
      TriplesNoIdentity(olds[1..], nb);
      SuffixedDiffer(olds[0], nb, ".RunnerTests");
      SuffixedDiffer(olds[0], nb, ".backend");
      assert t[3..] == rest;
      forall i | 3 <= i < |t| ensures t[i] == rest[i - 3] {
        assert t[i] == t[3..][i - 3];
      }
    }
  }

  /** Every bundle pair's needle starts with an old bundle's first letter. */
  lemma {:induction false} TriplesNeedlesStartWith(olds: seq<string>, nb: string, c: char)
    requires forall k :: 0 <= k < |olds| ==> olds[k] != [] && olds[k][0] == c
    ensures forall i :: 0 <= i < |BundleTriples(olds, nb)| ==>
      BundleTriples(olds, nb)[i].needle != [] && BundleTriples(olds, nb)[i].needle[0] == c
    decreases |olds|
  {
    if olds != [] {
      var t := BundleTriples(olds, nb);
      var rest := BundleTriples(olds[1..], nb);
      TriplesNeedlesStartWith(olds[1..], nb, c);
      assert t[3..] == rest;
      forall i | 3 <= i < |t| ensures t[i] == rest[i - 3] {
        assert t[i] == t[3..][i - 3];
      }
    }
  }

  lemma SuffixedDiffer(a: string, b: string, tail: string)
    requires a != b
    ensures a + tail != b + tail
  {
    if |a| == |b| {
      assert (a + tail)[..|a|] == a;
      assert (b + tail)[..|b|] == b;
    }
  }

  /** The pairs of `update_platform_identifiers`: the bundle triples, then the
      backend identifier `com.portalis.backend`.  `suffixOrder` is the
      iteration order of the previous bundle suffixes. */
  function PlatformReplacements(c: Context, suffixOrder: seq<string>): (r: seq<Subst>)
    requires Enumerates(suffixOrder, c.previousBundleSuffixes)
    ensures var olds := OldBundles(suffixOrder, c.bundleSuffix);
      |r| == 3 * |olds| + 1
      && r[..3 * |olds|] == BundleTriples(olds, BundleId(c.bundleSuffix))
      && r[3 * |olds|] == Subst("com.portalis.backend", "com." + c.bundleSuffix + ".backend")
    ensures forall b :: b in OldBundles(suffixOrder, c.bundleSuffix) <==>
      b != BundleId(c.bundleSuffix) && exists s :: s in c.previousBundleSuffixes && b == BundleId(s)
  {
    var olds := OldBundles(suffixOrder, c.bundleSuffix);
    OldBundlesFromSet(c, suffixOrder);
    BundleTriples(olds, BundleId(c.bundleSuffix))
      + [Subst("com.portalis.backend", "com." + c.bundleSuffix + ".backend")]
  }

  lemma OldBundlesFromSet(c: Context, suffixOrder: seq<string>)
    requires Enumerates(suffixOrder, c.previousBundleSuffixes)
    ensures forall b :: b in OldBundles(suffixOrder, c.bundleSuffix) <==>
      b != BundleId(c.bundleSuffix) && exists s :: s in c.previousBundleSuffixes && b == BundleId(s)
  {
    var olds := OldBundles(suffixOrder, c.bundleSuffix);
    forall b ensures b in olds <==> b != BundleId(c.bundleSuffix) && exists s :: s in c.previousBundleSuffixes && b == BundleId(s) {
      if b in olds {
        NewBundleNotOld(suffixOrder, c.bundleSuffix);
        var k :| 0 <= k < |olds| && olds[k] == b;
        assert b == BundleId(b[12..]);
      }
      if b != BundleId(c.bundleSuffix) && exists s :: s in c.previousBundleSuffixes && b == BundleId(s) {
        var s :| s in c.previousBundleSuffixes && b == BundleId(s);
        assert s != c.bundleSuffix;
      }
    }
  }

  /** For every previous name, in iteration order: the name, then its upper-case
      form, both mapped to the slug in the same case. */
  function NamePairs(names: seq<string>, slug: string): (r: seq<Subst>)
    ensures |r| == 2 * |names|
    ensures forall k :: 0 <= k < |names| ==>
      r[2 * k] == Subst(names[k], slug) && r[2 * k + 1] == Subst(Upper(names[k]), Upper(slug))
  {
    if names == [] then []
    else [Subst(names[0], slug), Subst(Upper(names[0]), Upper(slug))] + NamePairs(names[1..], slug)
  }

  /** The pairs of `apply_global_replacements`, in the script's order: the
      title in both cases, the previous names, the bundle triples, and finally
      `portalis.app`.  `nameOrder` and `suffixOrder` are the iteration orders
      of the two sets of the context. */
  function GlobalReplacements(c: Context, nameOrder: seq<string>, suffixOrder: seq<string>): (r: seq<Subst>)
    requires Enumerates(nameOrder, c.previousNames)
    requires Enumerates(suffixOrder, c.previousBundleSuffixes)
    ensures |r| == 3 + 2 * |c.previousNames| + 3 * |OldBundles(suffixOrder, c.bundleSuffix)|
    ensures r[0] == Subst("Portalis", c.appTitle) && r[1] == Subst("PORTALIS", Upper(c.appTitle))
    ensures r[|r| - 1] == Subst("portalis.app", c.slug + ".app")
    ensures forall x :: x in c.previousNames ==> Subst(x, c.slug) in r
    ensures forall b :: b in OldBundles(suffixOrder, c.bundleSuffix) ==> Subst(b, BundleId(c.bundleSuffix)) in r
  {
    var olds := OldBundles(suffixOrder, c.bundleSuffix);
    var heads := [Subst("Portalis", c.appTitle), Subst("PORTALIS", Upper(c.appTitle))];
    var names := NamePairs(nameOrder, c.slug);
    var triples := BundleTriples(olds, BundleId(c.bundleSuffix));
    var last := Subst("portalis.app", c.slug + ".app");
    ConcatShape(heads, names, triples, last);
    NamesPaired(c.previousNames, nameOrder, c.slug);
    EnumeratesSize(nameOrder, c.previousNames);
    OldBundlesPaired(olds, BundleId(c.bundleSuffix));
    heads + names + triples + [last]
  }

  /** An enumeration of a set is as long as the set is large. */
  lemma {:induction false} EnumeratesSize(order: seq<string>, xs: set<string>)
    requires Enumerates(order, xs)
    ensures |order| == |xs|
    decreases |order|
  {
    if order != [] {
      var rest := xs - {order[0]};
      assert order[0] !in order[1..];
      forall x ensures x in order[1..] <==> x in rest {
        if x in order[1..] {
          var k :| 0 <= k < |order[1..]| && order[1..][k] == x;
          assert order[k + 1] == x;
        }
        if x in rest {
          var k :| 0 <= k < |order| && order[k] == x;
          assert k != 0;
          assert order[1..][k - 1] == x;
        }
      }
      EnumeratesSize(order[1..], rest);
    } else {
      assert forall x :: x !in xs;
      assert xs == {};
    }
  }

  /** Every old bundle is mapped to the new one by some bundle pair. */
  lemma OldBundlesPaired(olds: seq<string>, nb: string)
    ensures forall b :: b in olds ==> Subst(b, nb) in BundleTriples(olds, nb)
  {
    var triples := BundleTriples(olds, nb);
    forall b | b in olds ensures Subst(b, nb) in triples {
      var k :| 0 <= k < |olds| && olds[k] == b;
      assert triples[3 * k] == Subst(b, nb);
    }
  }

  /** Where the pieces of a four-part list sit. */
  lemma ConcatShape<T>(a: seq<T>, b: seq<T>, c: seq<T>, d: T)
    ensures var r := a + b + c + [d];
      |r| == |a| + |b| + |c| + 1
      && r[..|a|] == a && r[|a|..|a| + |b|] == b && r[|a| + |b|..|a| + |b| + |c|] == c
      && r[|r| - 1] == d
      && (forall x :: x in b ==> x in r) && (forall x :: x in c ==> x in r)
  {
    var r := a + b + c + [d];
    forall x | x in b ensures x in r {
      var k :| 0 <= k < |b| && b[k] == x;
      assert r[|a| + k] == x;
    }
    forall x | x in c ensures x in r {
      var k :| 0 <= k < |c| && c[k] == x;
      assert r[|a| + |b| + k] == x;
    }
  }

  /** Every enumerated name is mapped to the slug by some name pair. */
  lemma NamesPaired(names: set<string>, nameOrder: seq<string>, slug: string)
    requires Enumerates(nameOrder, names)
    ensures forall x :: x in names ==> Subst(x, slug) in NamePairs(nameOrder, slug)
  {
    var pairs := NamePairs(nameOrder, slug);
    forall x | x in names ensures Subst(x, slug) in pairs {
      var k :| 0 <= k < |nameOrder| && nameOrder[k] == x;
      assert pairs[2 * k] == Subst(x, slug);
    }
  }

  /** The global pairs act in four stages, one after the other. */
  lemma GlobalInStages(c: Context, nameOrder: seq<string>, suffixOrder: seq<string>, s: string)
    requires Enumerates(nameOrder, c.previousNames)
    requires Enumerates(suffixOrder, c.previousBundleSuffixes)
    ensures ApplyAll(GlobalReplacements(c, nameOrder, suffixOrder), s)
      == ApplyAll([Subst("portalis.app", c.slug + ".app")],
           ApplyAll(BundleTriples(OldBundles(suffixOrder, c.bundleSuffix), BundleId(c.bundleSuffix)),
             ApplyAll(NamePairs(nameOrder, c.slug),
               ApplyAll([Subst("Portalis", c.appTitle), Subst("PORTALIS", Upper(c.appTitle))], s))))
  {
    var r := GlobalReplacements(c, nameOrder, suffixOrder);
    var heads := [Subst("Portalis", c.appTitle), Subst("PORTALIS", Upper(c.appTitle))];
    var names := NamePairs(nameOrder, c.slug);
    var triples := BundleTriples(OldBundles(suffixOrder, c.bundleSuffix), BundleId(c.bundleSuffix));
    var last := [Subst("portalis.app", c.slug + ".app")];
    assert r == heads + names + triples + last;
    ApplyAllConcat(heads + names + triples, last, s);
    ApplyAllConcat(heads + names, triples, s);
    ApplyAllConcat(heads, names, s);
  }

  /** A path the walk may rewrite: not the script itself, and accepted by
      `should_process`. */
  predicate Selected(path: string) {
    path != SCRIPT_PATH && ShouldProcess(path)
  }

  /** `path` lies below the directory `base` (the root when `base` is empty). */
  predicate Under(path: string, base: string) {
    base == [] || StartsWith(path, base + "/")
  }

  ghost function FilesUnder(files: map<string, string>, base: string): set<string> {
    set p | p in files && Under(p, base)
  }

  /** The walk rewrote `x`: it is a selected file on the walk's list whose text
      the pairs change. */
  ghost predicate Touched(st: State, subs: seq<Subst>, order: seq<string>, x: string) {
    x in st.files && x in order && Selected(x) && ApplyAll(subs, st.files[x]) != st.files[x]
  }

  /** One file of the walk: a selected file goes through `update_file` with
      the pairs as its transform, any other is passed over. */
  function Visit(st: State, subs: seq<Subst>, p: string): (r: State)
    ensures !Selected(p) ==> r == st
    ensures r.files.Keys == st.files.Keys
    ensures forall q :: q in st.files && q != p ==> r.files[q] == st.files[q]
    ensures p in st.files && Selected(p) ==> r.files[p] == ApplyAll(subs, st.files[p])
    ensures forall x :: x in r.changed <==>
      x in st.changed || (x == p && Selected(p) && p in st.files && ApplyAll(subs, st.files[p]) != st.files[p])
    ensures |st.changed| <= |r.changed| <= |st.changed| + 1 && r.changed[..|st.changed|] == st.changed
  {
    if Selected(p) then UpdateFile(st, p, s => ApplyAll(subs, s)) else st
  }

  /** The loop of `apply_replacements_in_tree` over the files `order` lists: it
      keeps the set of files, leaves alone every file it does not visit, and
      only appends to the changed list. */
  function Walk(st: State, subs: seq<Subst>, order: seq<string>): (r: State)
    ensures r.files.Keys == st.files.Keys
    ensures forall q :: q in st.files && q !in order ==> r.files[q] == st.files[q]
    ensures |st.changed| <= |r.changed| && r.changed[..|st.changed|] == st.changed
    decreases |order|
  {
    if order == [] then st
    else
      var next := Visit(st, subs, order[0]);
      var r := Walk(next, subs, order[1..]);
      assert r.changed[..|st.changed|] == r.changed[..|next.changed|][..|st.changed|];
      r
  }

  /** The walk rewrites exactly the selected files it visits, each once. */
  lemma {:induction false} WalkFiles(st: State, subs: seq<Subst>, order: seq<string>)
    requires NoDup(order)
    ensures forall p :: p in st.files ==>
      Walk(st, subs, order).files[p] == (if p in order && Selected(p) then ApplyAll(subs, st.files[p]) else st.files[p])
    decreases |order|
  {
    if order != [] {
      var p := order[0];
      var next := Visit(st, subs, p);
      assert p !in order[1..];
      WalkFiles(next, subs, order[1..]);
      assert forall x :: x in order <==> x == p || x in order[1..];
    }
  }

  /** The walk records, after what was recorded before, exactly the files it
      changed, with no duplicate. */
  lemma {:induction false} WalkChanged(st: State, subs: seq<Subst>, order: seq<string>)
    requires NoDup(order)
    ensures forall x :: x in Walk(st, subs, order).changed <==> x in st.changed || Touched(st, subs, order, x)
    ensures NoDup(st.changed) ==> NoDup(Walk(st, subs, order).changed)
    decreases |order|
  {
    if order != [] {
      var p := order[0];
      var next := Visit(st, subs, p);
      assert p !in order[1..];
      WalkChanged(next, subs, order[1..]);
      assert forall x :: x in order[1..] && x in st.files ==> next.files[x] == st.files[x];
      assert forall x :: x in order <==> x == p || x in order[1..];
    }
  }

  /** A walk that changes no file leaves the state as it was. */
  lemma {:induction false} WalkIdle(st: State, subs: seq<Subst>, order: seq<string>)
    requires forall x :: x in order ==> !Touched(st, subs, order, x)
    ensures Walk(st, subs, order) == st
    decreases |order|
  {
    if order != [] {
      var p := order[0];
      assert p in order;
      assert Visit(st, subs, p) == st;
      forall x | x in order[1..] ensures !Touched(st, subs, order[1..], x) {
        assert x in order;
      }
      WalkIdle(st, subs, order[1..]);
    }
  }

  /** `apply_replacements_in_tree(base, subs, changed)`: with no pairs nothing
      happens; otherwise every selected file below `base` is rewritten by the
      pairs in order, and recorded if its text changed.  `order` is the order in
      which `rglob` lists the files below `base`. */
  function ApplyInTree(st: State, base: string, subs: seq<Subst>, order: seq<string>): (r: State)
    requires Enumerates(order, FilesUnder(st.files, base))
    ensures subs == [] ==> r == st
    ensures r.files.Keys == st.files.Keys
    ensures forall p :: p in st.files ==>
      r.files[p] == (if Under(p, base) && Selected(p) then ApplyAll(subs, st.files[p]) else st.files[p])
    ensures forall x :: x in r.changed <==>
      (x in st.changed || (x in st.files && Under(x, base) && Selected(x) && ApplyAll(subs, st.files[x]) != st.files[x]))
    ensures |st.changed| <= |r.changed| && r.changed[..|st.changed|] == st.changed
    ensures NoDup(st.changed) ==> NoDup(r.changed)
    ensures (forall p :: p in st.files && Under(p, base) && Selected(p) ==> ApplyAll(subs, st.files[p]) == st.files[p])
      ==> r == st
  {
    WalkFiles(st, subs, order);
    WalkChanged(st, subs, order);
    InTreeTouched(st, base, subs, order);
    if subs == [] then st else Walk(st, subs, order)
  }

  lemma InTreeTouched(st: State, base: string, subs: seq<Subst>, order: seq<string>)
    requires Enumerates(order, FilesUnder(st.files, base))
    ensures forall x :: Touched(st, subs, order, x) <==>
      (x in st.files && Under(x, base) && Selected(x) && ApplyAll(subs, st.files[x]) != st.files[x])
    ensures (forall p :: p in st.files && Under(p, base) && Selected(p) ==> ApplyAll(subs, st.files[p]) == st.files[p])
      ==> Walk(st, subs, order) == st
  {
    if forall p :: p in st.files && Under(p, base) && Selected(p) ==> ApplyAll(subs, st.files[p]) == st.files[p] {
      WalkIdle(st, subs, order);
    }
  }

  /** Running the walk again over the same files changes nothing when the pairs
      reach a fixpoint on every selected file's rewritten text: the rerun
      promise of the script's docstring, under the condition it needs. */
  lemma TreeRerunStable(st: State, base: string, subs: seq<Subst>, order: seq<string>)
    requires Enumerates(order, FilesUnder(st.files, base))
    requires forall p :: p in st.files && Under(p, base) && Selected(p) ==>
      ApplyAll(subs, ApplyAll(subs, st.files[p])) == ApplyAll(subs, st.files[p])
    ensures var once := ApplyInTree(st, base, subs, order);
      FilesUnder(once.files, base) == FilesUnder(st.files, base)
      && ApplyInTree(once, base, subs, order) == once
  {
    var once := ApplyInTree(st, base, subs, order);
    assert FilesUnder(once.files, base) == FilesUnder(st.files, base);
  }

  /** A slug that extends an old name by a tail shorter than the name grows by
      that tail whenever the pair (name, slug) is applied to it. */
  lemma SlugGrows(name: string, tail: string)
    requires |tail| < |name|
    ensures ReplaceAll(name + tail, name, name + tail) == name + tail + tail
  {
    var s := name + tail;
    assert StartsWith(s, name);
    assert s[|name|..] == tail;
    NoOccurrenceWitness(tail, name, 0);
    assert ReplaceAll(tail, name, name + tail) == tail;
  }

  /** One previous name's two pairs on the rerun text `t`: the pair for
      `name` appends `tail` once, the pair for the slug itself changes nothing. */
  lemma RerunNameStep(n: string, name: string, tail: string, t: string)
    requires |tail| < |name|
    requires n == name || n == name + tail
    requires t == name + tail || t == name + tail + tail
    requires n == name ==> t == name + tail
    requires !Occurs(name + tail, Upper(name)) && !Occurs(name + tail + tail, Upper(name))
    ensures ApplyAll([Subst(n, name + tail), Subst(Upper(n), Upper(name + tail))], t)
         == if n == name then name + tail + tail else t
  {
    var slug := name + tail;
    var here := [Subst(n, slug), Subst(Upper(n), Upper(slug))];
    var u := ReplaceAll(t, n, slug);
    if n == name {
      SlugGrows(name, tail);
      assert u == slug + tail;
    } else {
      assert u == t;
      assert ReplaceAll(t, Upper(slug), Upper(slug)) == t;
    }
    assert here[1..] == [Subst(Upper(n), Upper(slug))];
    assert ApplyAll(here, t) == ReplaceAll(u, Upper(n), Upper(slug));
  }

  /** The name pairs of a rerun whose previous names are `name` and the slug
      `name + tail`, in either order, on the slug's text or, once `name` has
      been handled, on that text grown by `tail`. */
  lemma {:induction false} RerunNamePairs(order: seq<string>, name: string, tail: string, grown: bool)
    requires |tail| < |name|
    requires NoDup(order)
    requires forall k :: 0 <= k < |order| ==> order[k] == name || order[k] == name + tail
    requires grown ==> name !in order
    requires !Occurs(name + tail, Upper(name)) && !Occurs(name + tail + tail, Upper(name))
    ensures ApplyAll(NamePairs(order, name + tail), if grown then name + tail + tail else name + tail)
         == if grown || name in order then name + tail + tail else name + tail
    decreases |order|
  {
    var slug := name + tail;
    var t := if grown then slug + tail else slug;
    if order != [] {
      var n := order[0];
      var here := [Subst(n, slug), Subst(Upper(n), Upper(slug))];
      assert NamePairs(order, slug) == here + NamePairs(order[1..], slug);
      ApplyAllConcat(here, NamePairs(order[1..], slug), t);
      assert n !in order[1..];
      RerunNameStep(n, name, tail, t);
      RerunNamePairs(order[1..], name, tail, grown || n == name);
    }
  }

  /** The whole global list on the slug's text, for a rerun whose previous
      names are `name` and the slug `name + tail`: only the pair that maps
      `name` to the slug acts, and it appends `tail` once more. */
  lemma RerunGrows(c: Context, nameOrder: seq<string>, suffixOrder: seq<string>, name: string, tail: string)
    requires c.slug == name + tail && c.previousNames == {name, c.slug} && |tail| < |name|
    requires Enumerates(nameOrder, c.previousNames)
    requires Enumerates(suffixOrder, c.previousBundleSuffixes)
    requires !Occurs(c.slug, "Portalis") && !Occurs(c.slug, "PORTALIS")
    requires !Occurs(c.slug, Upper(name)) && !Occurs(c.slug + tail, Upper(name))
    requires 'c' !in c.slug + tail && !Occurs(c.slug + tail, "portalis.app")
    ensures ApplyAll(GlobalReplacements(c, nameOrder, suffixOrder), c.slug) == c.slug + tail
  {
    var t := c.slug;
    var t2 := c.slug + tail;
    var heads := [Subst("Portalis", c.appTitle), Subst("PORTALIS", Upper(c.appTitle))];
    var olds := OldBundles(suffixOrder, c.bundleSuffix);
    var triples := BundleTriples(olds, BundleId(c.bundleSuffix));
    GlobalInStages(c, nameOrder, suffixOrder, t);
    HeadsInert(c.appTitle, t);
    RerunNames(nameOrder, name, tail);
    BundleTriplesInert(olds, BundleId(c.bundleSuffix), t2);
    LastInert(c.slug, t2);
  }

  /** The `Portalis` pairs leave alone a text without either spelling. */
  lemma HeadsInert(title: string, t: string)
    requires !Occurs(t, "Portalis") && !Occurs(t, "PORTALIS")
    ensures ApplyAll([Subst("Portalis", title), Subst("PORTALIS", Upper(title))], t) == t
  {
    var heads := [Subst("Portalis", title), Subst("PORTALIS", Upper(title))];
    assert forall k :: 0 <= k < |heads| ==> Inert(heads[k], t);
  }

  /** The final `portalis.app` pair leaves alone a text without it. */
  lemma LastInert(slug: string, t: string)
    requires !Occurs(t, "portalis.app")
    ensures ApplyAll([Subst("portalis.app", slug + ".app")], t) == t
  {
    var last := [Subst("portalis.app", slug + ".app")];
    assert forall k :: 0 <= k < |last| ==> Inert(last[k], t);
  }

  lemma RerunNames(nameOrder: seq<string>, name: string, tail: string)
    requires |tail| < |name| && Enumerates(nameOrder, {name, name + tail})
    requires !Occurs(name + tail, Upper(name)) && !Occurs(name + tail + tail, Upper(name))
    ensures ApplyAll(NamePairs(nameOrder, name + tail), name + tail) == name + tail + tail
  {
    assert name in nameOrder;
    forall k | 0 <= k < |nameOrder| ensures nameOrder[k] == name || nameOrder[k] == name + tail {
      assert nameOrder[k] in nameOrder;
    }
    RerunNamePairs(nameOrder, name, tail, false);
  }

  /** Bundle pairs leave alone a text without the letter `c`, with which every
      bundle identifier starts. */
  lemma BundleTriplesInert(olds: seq<string>, newBundle: string, t: string)
    requires forall k :: 0 <= k < |olds| ==> StartsWith(olds[k], "com.example.")
    requires 'c' !in t
    ensures ApplyAll(BundleTriples(olds, newBundle), t) == t
  {
    var triples := BundleTriples(olds, newBundle);
    forall k | 0 <= k < |olds| ensures olds[k] != [] && olds[k][0] == 'c' {
      assert StartsWith(olds[k], "com.example.");
    }
    TriplesNeedlesStartWith(olds, newBundle, 'c');
    forall i | 0 <= i < |triples| ensures Inert(triples[i], t) {
      NoOccurrenceWitness(t, triples[i].needle, 0);
    }
    assert ApplyAll(triples, t) == t;
  }

  /** What the rerun example needs of the texts `portalis_app` and
      `portalis_app_app`: neither holds a needle of the global list other than
      `portalis` and the slug. */
  lemma PortalisAppFacts()
    ensures DEFAULT_DIRNAME + "_app" == "portalis_app" && "portalis_app" + "_app" == "portalis_app_app"
    ensures !Occurs("portalis_app", "Portalis") && !Occurs("portalis_app", "PORTALIS")
    ensures !Occurs("portalis_app", Upper(DEFAULT_DIRNAME)) && !Occurs("portalis_app" + "_app", Upper(DEFAULT_DIRNAME))
    ensures 'c' !in "portalis_app" + "_app" && !Occurs("portalis_app" + "_app", "portalis.app")
  {
    var t := "portalis_app";
    var t2 := t + "_app";
    assert t2 == "portalis_app_app";
    assert 'P' !in t && 'P' !in t2 && '.' !in t2;
    assert Upper(DEFAULT_DIRNAME)[0] == 'P';
    NoOccurrenceWitness(t, "Portalis", 0);
    NoOccurrenceWitness(t, "PORTALIS", 0);
    NoOccurrenceWitness(t, Upper(DEFAULT_DIRNAME), 0);
    NoOccurrenceWitness(t2, Upper(DEFAULT_DIRNAME), 0);
    NoOccurrenceWitness(t2, "portalis.app", 8);
  }

  /** The rerun promise fails for a slug that contains an old name.  After a
      first run with slug `portalis_app`, the directory carries the slug, so
      the rerun's context pairs `portalis` with `portalis_app` again, and the
      text `portalis_app`, which the first run wrote, becomes
      `portalis_app_app` on that one rerun. */
  lemma RerunGrowsSlug(c: Context, nameOrder: seq<string>, suffixOrder: seq<string>)
    requires c.slug == "portalis_app" && c.previousNames == {DEFAULT_DIRNAME, "portalis_app"}
    requires Enumerates(nameOrder, c.previousNames)
    requires Enumerates(suffixOrder, c.previousBundleSuffixes)
    ensures ApplyAll(GlobalReplacements(c, nameOrder, suffixOrder), "portalis_app") == "portalis_app_app"
  {
    PortalisAppFacts();
    RerunGrows(c, nameOrder, suffixOrder, DEFAULT_DIRNAME, "_app");
    assert c.slug + "_app" == "portalis_app_app";
  }
}

=== FILE: names.dfy ===
/** Names derived from the project slug (scripts/project_migration.py):
    `sanitize_bundle_suffix`, `derive_app_title`, `derive_pascal` and the slug
    check of `parse_args`. */
module Names {
  import opened Text

  /** The separators of `re.split(r"[-_]+", slug)`. */
  predicate IsSep(c: char) { c == '-' || c == '_' }
  predicate IsNotSep(c: char) { !IsSep(c) }
  predicate IsNotUnderscore(c: char) { c != '_' }

  /** A character the bundle suffix may hold: `[a-z0-9]`. */
  predicate IsBundleChar(c: char) { IsLower(c) || IsDigit(c) }

  /** Lower-casing then keeping `[a-z0-9]` is keeping the letters and digits
      then lower-casing. */
  lemma {:induction false} KeepLowerCommute(s: string)
    ensures Keep(Lower(s), IsBundleChar) == Lower(Keep(s, IsAlnum))
    decreases |s|
  {
    if s != [] {
      assert Lower(s)[1..] == Lower(s[1..]);
      KeepLowerCommute(s[1..]);
      if IsAlnum(s[0]) {
        LowerAppend([s[0]], Keep(s[1..], IsAlnum));
      }
    }
  }

  /** `sanitize_bundle_suffix(name)`: the ASCII letters and digits of `name`,
      in order and lower-cased, or `app` when there are none. */
  function SanitizeBundleSuffix(name: string): (r: string)
    ensures r != [] && forall i :: 0 <= i < |r| ==> IsBundleChar(r[i])
    ensures (forall i :: 0 <= i < |name| ==> !IsAlnum(name[i])) ==> r == "app"
    ensures (exists i :: 0 <= i < |name| && IsAlnum(name[i])) ==> r == Lower(Keep(name, IsAlnum))
  {
    KeepLowerCommute(name);
    var suffix := Keep(Lower(name), IsBundleChar);
    if suffix == [] then "app" else suffix
  }

  /** Sanitising a bundle suffix again changes nothing. */
  lemma SanitizeIdempotent(name: string)
    ensures SanitizeBundleSuffix(SanitizeBundleSuffix(name)) == SanitizeBundleSuffix(name)
  {
    var r := SanitizeBundleSuffix(name);
    LowerIdentity(r);
    assert Keep(Lower(r), IsBundleChar) == r;
  }

  /** The `--slug` check: `re.fullmatch(r"[a-z][a-z0-9_]*", slug)`. An
      accepted slug is a non-empty run of word characters, already lower-case
      and already stripped, with no slash: it names a single directory. */
  function IsValidSlug(s: string): (b: bool)
    ensures b ==> s != [] && '/' !in s
    ensures b ==> forall i :: 0 <= i < |s| ==> IsWordChar(s[i]) && !IsSpace(s[i])
  {
    |s| > 0 && IsLower(s[0])
    && forall i :: 0 <= i < |s| ==> IsLower(s[i]) || IsDigit(s[i]) || s[i] == '_'
  }

  /** An accepted slug is already in the form the checks produce: lower-casing
      or stripping it again changes nothing. */
  lemma ValidSlugNormal(s: string)
    requires IsValidSlug(s)
    ensures Lower(s) == s && Strip(s) == s
  {
    LowerIdentity(s);
    NoSpaceStripped(s);
  }

  /** For an accepted slug the bundle suffix is the slug without its
      underscores; it keeps the slug's first letter, so it is never the `app`
      fallback unless the slug spells it. */
  lemma SanitizeValidSlug(slug: string)
    requires IsValidSlug(slug)
    ensures SanitizeBundleSuffix(slug) == Keep(slug, IsNotUnderscore)
    ensures SanitizeBundleSuffix(slug)[0] == slug[0]
  {
    LowerIdentity(slug);
    KeepAgree(slug, IsBundleChar, IsNotUnderscore);
    assert Keep(slug, IsBundleChar) == [slug[0]] + Keep(slug[1..], IsBundleChar);
  }

  /** The length of the leading run of non-separators. */
  function RunLength(s: string): (n: nat)
    ensures n <= |s|
    ensures forall i :: 0 <= i < n ==> !IsSep(s[i])
    ensures n == |s| || IsSep(s[n])
  {
    if s == [] || IsSep(s[0]) then 0 else 1 + RunLength(s[1..])
  }

  /** The non-empty parts of `re.split(r"[-_]+", s)`: the maximal runs of
      non-separator characters, in order. */
  function Words(s: string): (ws: seq<string>)
    ensures forall k :: 0 <= k < |ws| ==> ws[k] != []
    ensures forall k, i :: 0 <= k < |ws| && 0 <= i < |ws[k]| ==> !IsSep(ws[k][i])
    ensures JoinWith("", ws) == Keep(s, IsNotSep)
    decreases |s|
  {
    if s == [] then []
    else if IsSep(s[0]) then Words(s[1..])
    else
      var n := RunLength(s);
      var rest := Words(s[n..]);
      KeepAfterRun(s);
      ConcatCons(s[..n], rest);
      [s[..n]] + rest
  }

  /** Dropping separators keeps the leading run whole. */
  lemma KeepAfterRun(s: string)
    ensures Keep(s, IsNotSep) == s[..RunLength(s)] + Keep(s[RunLength(s)..], IsNotSep)
  {
    var n := RunLength(s);
    assert s == s[..n] + s[n..];
    KeepAppend(s[..n], s[n..], IsNotSep);
    assert forall i :: 0 <= i < |s[..n]| ==> IsNotSep(s[..n][i]);
  }

  /** Every character of a word is a character of the text. */
  lemma {:induction false} WordCharsFromText(s: string, c: char)
    requires exists k :: 0 <= k < |Words(s)| && c in Words(s)[k]
    ensures c in s
    decreases |s|
  {
    var ws := Words(s);
    var k :| 0 <= k < |ws| && c in ws[k];
    if IsSep(s[0]) {
      WordCharsFromText(s[1..], c);
    } else {
      var n := RunLength(s);
      if k == 0 {
        assert c in s[..n];
      } else {
        assert ws[k] == Words(s[n..])[k - 1];
        WordCharsFromText(s[n..], c);
      }
    }
  }

  /** The words are exactly the non-empty pieces of a split at every single
      separator, as `if part` filters them in `derive_app_title`. */
  lemma {:induction false} WordsAreNonEmptyParts(s: string)
    ensures Words(s) == NonEmpty(SplitWhere(s, IsSep))
    decreases |s|
  {
    if s != [] {
      var n := RunLength(s);
      SplitAtFirst(s, n, IsSep);
      if IsSep(s[0]) {
        assert SplitWhere(s, IsSep) == [[]] + SplitWhere(s[1..], IsSep);
        assert ([[]] + SplitWhere(s[1..], IsSep))[1..] == SplitWhere(s[1..], IsSep);
        WordsAreNonEmptyParts(s[1..]);
      } else {
        var tail := if n == |s| then [] else SplitWhere(s[n + 1..], IsSep);
        assert ([s[..n]] + tail)[1..] == tail;
        if n < |s| {
          assert s[n..][1..] == s[n + 1..];
          WordsAreNonEmptyParts(s[n + 1..]);
        }
      }
    }
  }

  function CapitalizeAll(ws: seq<string>): (cs: seq<string>)
    ensures |cs| == |ws|
    ensures forall k :: 0 <= k < |ws| ==> cs[k] == Capitalize(ws[k])
  {
    seq(|ws|, k requires 0 <= k < |ws| => Capitalize(ws[k]))
  }

  /** Capitalising words free of separators and blanks leaves them free of
      both, and non-empty words non-empty. */
  lemma CapitalizeKeepsClean(ws: seq<string>)
    requires forall k, i :: 0 <= k < |ws| && 0 <= i < |ws[k]| ==> !IsSep(ws[k][i])
    ensures forall k, i :: 0 <= k < |ws| && 0 <= i < |ws[k]| ==>
      !IsSep(CapitalizeAll(ws)[k][i]) && (CapitalizeAll(ws)[k][i] == ' ' ==> ws[k][i] == ' ')
  {
  }

  /** A join with a separator-free glue of separator-free parts holds no
      separator. */
  lemma JoinNoSep(glue: string, parts: seq<string>)
    requires forall i :: 0 <= i < |glue| ==> !IsSep(glue[i])
    requires forall k, i :: 0 <= k < |parts| && 0 <= i < |parts[k]| ==> !IsSep(parts[k][i])
    ensures forall i :: 0 <= i < |JoinWith(glue, parts)| ==> !IsSep(JoinWith(glue, parts)[i])
  {
    var j := JoinWith(glue, parts);
    forall i | 0 <= i < |j| ensures !IsSep(j[i]) {
      JoinWithChars(glue, parts, j[i]);
    }
  }

  /** Joining the capitalised forms of at least one non-empty word gives a
      non-empty text. */
  lemma CapitalizedJoinNonEmpty(glue: string, ws: seq<string>)
    requires forall k :: 0 <= k < |ws| ==> ws[k] != []
    ensures ws != [] ==> JoinWith(glue, CapitalizeAll(ws)) != []
  {
    if ws != [] {
      JoinWithNonEmpty(glue, CapitalizeAll(ws));
    }
  }

  /** With no words the slug is all separators; with words it is not. */
  lemma NoWordsAllSep(s: string)
    ensures Words(s) == [] <==> forall i :: 0 <= i < |s| ==> IsSep(s[i])
  {
    if Words(s) != [] {
      JoinWithNonEmpty("", Words(s));
    }
  }

  /** `derive_app_title(slug)`: the capitalised words joined by single spaces;
      a slug without words comes back unchanged. */
  function DeriveAppTitle(slug: string): (r: string)
    ensures Words(slug) == [] ==> r == slug
    ensures Words(slug) != [] ==> r != [] && forall i :: 0 <= i < |r| ==> !IsSep(r[i])
  {
    var ws := Words(slug);
    var joined := JoinWith(" ", CapitalizeAll(ws));
    NoWordsAllSep(slug);
    CapitalizeKeepsClean(ws);
    JoinNoSep(" ", CapitalizeAll(ws));
    CapitalizedJoinNonEmpty(" ", ws);
    if joined == [] then Capitalize(slug) else joined
  }

  lemma LowerConcat(a: string, b: string, a': string, b': string)
    requires Lower(a) == Lower(a') && Lower(b) == Lower(b')
    ensures Lower(a + b) == Lower(a' + b')
  {
    LowerAppend(a, b);
    LowerAppend(a', b');
  }

  /** Lower-casing the concatenated capitalised words is lower-casing the
      concatenated words. */
  lemma LowerJoinCapitalized(ws: seq<string>)
    ensures Lower(JoinWith("", CapitalizeAll(ws))) == Lower(JoinWith("", ws))
  {
    LowerJoinAgree(CapitalizeAll(ws), ws);
  }

  /** Lists that agree word by word up to case agree up to case once run
      together. */
  lemma {:induction false} LowerJoinAgree(a: seq<string>, b: seq<string>)
    requires |a| == |b|
    requires forall k :: 0 <= k < |a| ==> Lower(a[k]) == Lower(b[k])
    ensures Lower(JoinWith("", a)) == Lower(JoinWith("", b))
    decreases |a|
  {
    if a != [] {
      LowerJoinAgree(a[1..], b[1..]);
      assert a == [a[0]] + a[1..] && b == [b[0]] + b[1..];
      ConcatCons(a[0], a[1..]);
      ConcatCons(b[0], b[1..]);
      LowerConcat(a[0], JoinWith("", a[1..]), b[0], JoinWith("", b[1..]));
    }
  }

  /** `derive_pascal(slug)`: the capitalised words run together.  It holds no
      separator and, up to case, spells the slug with its separators removed;
      a slug without words comes back unchanged. */
  function DerivePascal(slug: string): (r: string)
    ensures Words(slug) == [] ==> r == slug
    ensures Words(slug) != [] ==> forall i :: 0 <= i < |r| ==> !IsSep(r[i])
    ensures Words(slug) != [] ==> Lower(r) == Lower(Keep(slug, IsNotSep))
  {
    var ws := Words(slug);
    var joined := JoinWith("", CapitalizeAll(ws));
    NoWordsAllSep(slug);
    CapitalizeKeepsClean(ws);
    JoinNoSep("", CapitalizeAll(ws));
    LowerJoinCapitalized(ws);
    CapitalizedJoinNonEmpty("", ws);
    if joined == [] then Capitalize(slug) else joined
  }

  /** Dropping the blanks of a blank-joined list of blank-free parts is running
      the parts together. */
  lemma {:induction false} KeepBlankJoin(parts: seq<string>)
    requires forall k, i :: 0 <= k < |parts| && 0 <= i < |parts[k]| ==> parts[k][i] != ' '
    ensures Keep(JoinWith(" ", parts), IsNotBlank) == JoinWith("", parts)
    decreases |parts|
  {
    if parts != [] {
      assert Keep(parts[0], IsNotBlank) == parts[0];
      if |parts| > 1 {
        KeepBlankJoin(parts[1..]);
        KeepAppend(parts[0] + " ", JoinWith(" ", parts[1..]), IsNotBlank);
        KeepAppend(parts[0], " ", IsNotBlank);
        assert Keep(" ", IsNotBlank) == [];
      }
    }
  }

  /** For a slug without blanks the Pascal name is the application title with
      its blanks removed. */
  lemma PascalIsTitleWithoutBlanks(slug: string)
    requires forall i :: 0 <= i < |slug| ==> slug[i] != ' '
    ensures DerivePascal(slug) == Keep(DeriveAppTitle(slug), IsNotBlank)
  {
    var ws := Words(slug);
    if ws == [] {
      assert Keep(slug, IsNotBlank) == slug;
    } else {
      CapitalizeKeepsClean(ws);
      forall k, i | 0 <= k < |ws| && 0 <= i < |ws[k]| ensures ws[k][i] != ' ' {
        WordCharsFromText(slug, ws[k][i]);
      }
      KeepBlankJoin(CapitalizeAll(ws));
      JoinWithNonEmpty(" ", CapitalizeAll(ws));
      JoinWithNonEmpty("", CapitalizeAll(ws));
    }
  }

  /** For a slug without blanks that has words, splitting the title at its
      blanks gives back the capitalised words, one piece per word. */
  lemma TitleWords(slug: string)
    requires forall i :: 0 <= i < |slug| ==> slug[i] != ' '
    requires Words(slug) != []
    ensures SplitWhere(DeriveAppTitle(slug), IsBlank) == CapitalizeAll(Words(slug))
  {
    var ws := Words(slug);
    CapitalizeKeepsClean(ws);
    forall k, i | 0 <= k < |ws| && 0 <= i < |ws[k]| ensures !IsBlank(CapitalizeAll(ws)[k][i]) {
      WordCharsFromText(slug, ws[k][i]);
    }
    SplitJoin(' ', IsBlank, CapitalizeAll(ws));
    CapitalizedJoinNonEmpty(" ", ws);
  }

  /** For an accepted slug the lower-cased Pascal name is the bundle suffix. */
  lemma PascalMatchesBundleSuffix(slug: string)
    requires IsValidSlug(slug)
    ensures Lower(DerivePascal(slug)) == SanitizeBundleSuffix(slug)
  {
    NoWordsAllSep(slug);
    assert !IsSep(slug[0]);
    KeepAgree(slug, IsNotSep, IsNotUnderscore);
    LowerIdentity(Keep(slug, IsNotUnderscore));
    SanitizeValidSlug(slug);
  }
}

=== FILE: replace.dfy ===
/** Python's `str.replace`, which the migration script uses for every ordered
    substitution (scripts/project_migration.py, `apply_replacements_in_tree`):
    all non-overlapping occurrences, scanned left to right, and the count-1 form
    used when directory prefixes are rewritten. */
module Replace {
  import opened Text

  /** `s.replace("", rep)`: `rep` before every character and once at the end. */
  function Interleave(s: string, rep: string): (r: string)
    ensures |r| >= |s|
    ensures rep != [] ==> |r| > |s|
    ensures rep == [] ==> r == s
  {
    if s == [] then rep else rep + [s[0]] + Interleave(s[1..], rep)
  }

  /** `s.replace(needle, rep)`: a pair mapping its needle to itself, or a
      non-empty needle the text lacks, leaves the text as it is; a replacement
      no shorter than its needle never shortens the text, and one no longer
      never lengthens it. */
  function ReplaceAll(s: string, needle: string, rep: string): (r: string)
    ensures needle == rep ==> r == s
    ensures needle != [] && !Occurs(s, needle) ==> r == s
    ensures needle != [] && |rep| >= |needle| ==> |r| >= |s|
    ensures needle != [] && |rep| <= |needle| ==> |r| <= |s|
    decreases |s|
  {
    if needle == [] then Interleave(s, rep)
    else if s == [] then []
    else if StartsWith(s, needle) then
      assert OccursAt(s, needle, 0);
      assert s == s[..|needle|] + s[|needle|..];
      rep + ReplaceAll(s[|needle|..], needle, rep)
    else
      NotOccursTail(s, needle);
      assert s == [s[0]] + s[1..];
      [s[0]] + ReplaceAll(s[1..], needle, rep)
  }

  /** `s.replace(needle, rep, 1)`: only the first occurrence is replaced. */
  function ReplaceFirst(s: string, needle: string, rep: string): (r: string)
    ensures StartsWith(s, needle) ==> r == rep + s[|needle|..]
    ensures needle != [] && !Occurs(s, needle) ==> r == s
    decreases |s|
  {
    if needle == [] then rep + s
    else if s == [] then []
    else if StartsWith(s, needle) then
      assert OccursAt(s, needle, 0);
      rep + s[|needle|..]
    else
      NotOccursTail(s, needle);
      [s[0]] + ReplaceFirst(s[1..], needle, rep)
  }

  /** Moving a directory prefix and moving it back restores the entry: the
      count-1 replacement at the front is undone by its reverse. */
  lemma ReplaceFirstInverse(s: string, needle: string, rep: string)
    requires StartsWith(s, needle)
    ensures ReplaceFirst(ReplaceFirst(s, needle, rep), rep, needle) == s
  {
    var r := ReplaceFirst(s, needle, rep);
    assert r[..|rep|] == rep;
    assert r[|rep|..] == s[|needle|..];
    assert s == s[..|needle|] + s[|needle|..];
  }

  /** A needle absent from a text is absent from its tail. */
  lemma NotOccursTail(s: string, needle: string)
    requires s != []
    ensures !Occurs(s, needle) ==> !Occurs(s[1..], needle)
  {
    forall i | OccursAt(s[1..], needle, i) ensures OccursAt(s, needle, i + 1) {
      assert s[i + 1..i + 1 + |needle|] == s[1..][i..i + |needle|];
    }
  }

  /** An occurrence that does not start the text occurs in its tail. */
  lemma OccursInTail(s: string, needle: string, i: int)
    requires OccursAt(s, needle, i) && i > 0
    ensures OccursAt(s[1..], needle, i - 1)
  {
    assert s[1..][i - 1..i - 1 + |needle|] == s[i..i + |needle|];
  }

  /** `str.replace` scans left to right: the text before the leftmost
      occurrence is kept, that occurrence becomes `rep`, and the scan resumes
      after it, so occurrences never overlap. */
  lemma ReplaceAllAtLeftmost(s: string, needle: string, rep: string, i: int)
    requires needle != [] && OccursAt(s, needle, i)
    requires forall j :: 0 <= j < i ==> !OccursAt(s, needle, j)
    ensures ReplaceAll(s, needle, rep) == s[..i] + rep + ReplaceAll(s[i + |needle|..], needle, rep)
  {
    LeftmostFrom(s, needle, rep, 0, i);
    assert s[0..] == s;
    assert s[0..i] == s[..i];
  }

  /** The scan from index `k` up to an occurrence at `i` with none in between. */
  lemma {:induction false} LeftmostFrom(s: string, needle: string, rep: string, k: int, i: int)
    requires needle != [] && 0 <= k <= i && OccursAt(s, needle, i)
    requires forall j :: k <= j < i ==> !OccursAt(s, needle, j)
    ensures ReplaceAll(s[k..], needle, rep) == s[k..i] + rep + ReplaceAll(s[i + |needle|..], needle, rep)
    decreases i - k
  {
    if k == i {
      ReplaceAtHit(s, needle, rep, i);
      assert s[k..i] == [];
    } else {
      assert !OccursAt(s, needle, k);
      LeftmostFrom(s, needle, rep, k + 1, i);
      LeftmostStep(s, needle, rep, k, i, ReplaceAll(s[i + |needle|..], needle, rep));
    }
  }

  /** One kept character in front of the scan from `k + 1`. */
  lemma LeftmostStep(s: string, needle: string, rep: string, k: int, i: int, after: string)
    requires needle != [] && 0 <= k < i <= |s| && !OccursAt(s, needle, k)
    requires ReplaceAll(s[k + 1..], needle, rep) == s[k + 1..i] + rep + after
    ensures ReplaceAll(s[k..], needle, rep) == s[k..i] + rep + after
  {
    ReplaceAtMiss(s, needle, rep, k);
    Regroup([s[k]], s[k + 1..i], rep, after);
    ConsSlice(s, k, i);
  }

  /** At an occurrence the scan emits `rep` and skips the needle. */
  lemma ReplaceAtHit(s: string, needle: string, rep: string, i: int)
    requires needle != [] && OccursAt(s, needle, i)
    ensures ReplaceAll(s[i..], needle, rep) == rep + ReplaceAll(s[i + |needle|..], needle, rep)
  {
    var t := s[i..];
    assert t[..|needle|] == s[i..i + |needle|];
    assert t[|needle|..] == s[i + |needle|..];
  }

  /** Away from an occurrence the scan keeps one character and moves on. */
  lemma ReplaceAtMiss(s: string, needle: string, rep: string, k: int)
    requires needle != [] && 0 <= k < |s| && !OccursAt(s, needle, k)
    ensures ReplaceAll(s[k..], needle, rep) == [s[k]] + ReplaceAll(s[k + 1..], needle, rep)
  {
    var t := s[k..];
    assert |needle| <= |t| ==> t[..|needle|] == s[k..k + |needle|];
    assert t[1..] == s[k + 1..];
  }

  lemma ConsSlice(s: string, k: int, i: int)
    requires 0 <= k < i <= |s|
    ensures [s[k]] + s[k + 1..i] == s[k..i]
  {
  }

  lemma Regroup(a: string, b: string, c: string, d: string)
    ensures a + (b + c + d) == (a + b) + c + d
  {
  }

  lemma {:induction false} OccurrenceChanges(s: string, needle: string, rep: string)
    requires needle != [] && needle != rep && Occurs(s, needle)
    ensures ReplaceAll(s, needle, rep) != s
    decreases |s|
  {
    var i :| OccursAt(s, needle, i);
    var r := ReplaceAll(s, needle, rep);
    if StartsWith(s, needle) {
      var rest := s[|needle|..];
      assert r == rep + ReplaceAll(rest, needle, rep);
      if |rep| == |needle| {
        assert r[..|rep|] == rep;
        assert s[..|needle|] == needle;
      } else if |rep| > |needle| {
        assert |r| > |s|;
      } else {
        assert |r| < |s|;
      }
    } else {
      assert i != 0;
      OccursInTail(s, needle, i);
      OccurrenceChanges(s[1..], needle, rep);
      assert r == [s[0]] + ReplaceAll(s[1..], needle, rep);
      assert r[1..] == ReplaceAll(s[1..], needle, rep);
    }
  }

  /** `s.replace(needle, rep)` returns `s` itself exactly when the needle and
      its replacement are equal or the needle does not occur in `s` (the empty
      needle occurs in every text). */
  lemma ReplaceAllUnchangedIff(s: string, needle: string, rep: string)
    ensures ReplaceAll(s, needle, rep) == s <==> (needle == rep || !Occurs(s, needle))
  {
    if needle == [] {
      assert OccursAt(s, needle, 0);
    } else if needle != rep && Occurs(s, needle) {
      OccurrenceChanges(s, needle, rep);
    }
  }

  /** A needle longer than the text, or containing a character the text lacks,
      does not occur in it. */
  lemma NoOccurrenceWitness(s: string, needle: string, j: int)
    requires |needle| > |s| || (0 <= j < |needle| && needle[j] !in s)
    ensures !Occurs(s, needle)
  {
    forall i | 0 <= i <= |s| - |needle| ensures !OccursAt(s, needle, i) {
      if 0 <= j < |needle| {
        assert s[i..i + |needle|][j] == s[i + j];
      }
    }
  }

  /** One `(old, new)` pair of the script's replacement lists. */
  datatype Subst = Subst(needle: string, rep: string)

  /** A pair leaves `s` alone: it maps its needle to itself, or the needle is
      absent. */
  ghost predicate Inert(sub: Subst, s: string) {
    sub.needle == sub.rep || !Occurs(s, sub.needle)
  }

  /** The transform built in `apply_replacements_in_tree`: every pair in list
      order, each as a `str.replace` on the result of the previous one. A text
      on which every pair is inert is a fixpoint of the whole list. */
  function ApplyAll(subs: seq<Subst>, s: string): (r: string)
    ensures (forall k :: 0 <= k < |subs| ==> Inert(subs[k], s)) ==> r == s
    ensures |subs| == 1 ==> r == ReplaceAll(s, subs[0].needle, subs[0].rep)
    decreases |subs|
  {
    if subs == [] then s
    else
      assert OccursAt(s, [], 0);
      ApplyAll(subs[1..], ReplaceAll(s, subs[0].needle, subs[0].rep))
  }

  /** Running a concatenated list is running the first part, then the second. */
  lemma {:induction false} ApplyAllConcat(a: seq<Subst>, b: seq<Subst>, s: string)
    ensures ApplyAll(a + b, s) == ApplyAll(b, ApplyAll(a, s))
    decreases |a|
  {
    if a == [] {
      assert a + b == b;
    } else {
      assert (a + b)[1..] == a[1..] + b;
      ApplyAllConcat(a[1..], b, ReplaceAll(s, a[0].needle, a[0].rep));
    }
  }
}

=== FILE: selection.dfy ===
/** Which files the substitution walk touches and where the Flutter project
    lives (scripts/project_migration.py: `should_process`,
    `locate_flutter_dir`).  A path is the POSIX text of a file's path relative
    to the repository root. */
module Selection {
  import opened Text
  import opened Wrappers

  const SKIP_DIRS: set<string> := {".git", ".dart_tool", "build", "DerivedData", "node_modules", ".gradle", "target"}

  const TEXT_EXTS: set<string> := {
    ".dart", ".rs", ".yaml", ".yml", ".json", ".md", ".txt", ".xml", ".gradle",
    ".kt", ".kts", ".swift", ".m", ".mm", ".h", ".hpp", ".c", ".cc", ".cpp",
    ".cmake", ".plist", ".xcconfig", ".cfg", ".conf", ".ini", ".ps1", ".sh",
    ".bat", ".toml", ".lock", ".properties", ".pbxproj", ".rc", ".xcscheme"
  }

  const SPECIAL_FILENAMES: set<string> := {"project.pbxproj"}

  const DEFAULT_DIRNAME: string := "portalis"

  const NOT_FOUND: string :=
    "Could not locate the Flutter project directory (expected 'portalis' or a directory containing pubspec.yaml)."

  /** `Path.parts` of a relative path: its `/`-separated components. */
  function Components(path: string): (parts: seq<string>)
    ensures |parts| >= 1
    ensures JoinWith("/", parts) == path
    ensures forall k :: 0 <= k < |parts| ==> '/' !in parts[k]
  {
    SplitJoinRoundTrip(path);
    SplitWhere(path, IsSlash)
  }

  /** `Path.name`: the last component. */
  function FileName(path: string): (name: string)
    ensures '/' !in name
    ensures name in Components(path)
  {
    var parts := Components(path);
    parts[|parts| - 1]
  }

  /** The index of the last `c` in `s`, or -1 (`str.rfind`). */
  function LastIndexOf(s: string, c: char): (i: int)
    ensures -1 <= i < |s|
    ensures i >= 0 ==> s[i] == c
    ensures forall j :: i < j < |s| ==> s[j] != c
  {
    if s == [] then -1
    else if s[|s| - 1] == c then |s| - 1
    else LastIndexOf(s[..|s| - 1], c)
  }

  /** `PurePath.suffix` of a file name: from its last dot on, unless that dot
      starts the name or ends it. */
  function Suffix(name: string): (ext: string)
    ensures ext == [] || (|ext| >= 2 && ext[0] == '.' && '.' !in ext[1..])
    ensures ext == [] || (|ext| < |name| && name[|name| - |ext|..] == ext)
  {
    var i := LastIndexOf(name, '.');
    if 0 < i < |name| - 1 then
      name[i..]
    else []
  }

  /** A dotted extension behind a non-empty stem is the suffix of the name. */
  lemma SuffixOfExtension(stem: string, ext: string)
    requires stem != [] && |ext| >= 2 && ext[0] == '.' && '.' !in ext[1..]
    ensures Suffix(stem + ext) == ext
  {
    var name := stem + ext;
    var i := LastIndexOf(name, '.');
    assert name[|stem|] == '.';
    forall j | |stem| < j < |name| ensures name[j] != '.' {
      assert name[j] == ext[1..][j - |stem| - 1];
    }
    assert i == |stem|;
    assert name[i..] == ext;
  }

  /** `should_process(path)`: no component may be a skipped directory; then a
      special file name is taken, and otherwise the suffix decides. A processed
      path lies in no skipped directory and has a text suffix. */
  function ShouldProcess(path: string): (b: bool)
    ensures b ==> forall k :: 0 <= k < |Components(path)| ==> Components(path)[k] !in SKIP_DIRS
    ensures b ==> Suffix(FileName(path)) in TEXT_EXTS
  {
    var parts := Components(path);
    if exists k :: 0 <= k < |parts| && parts[k] in SKIP_DIRS then false
    else if FileName(path) in SPECIAL_FILENAMES then
      SpecialNamesHaveTextSuffix();
      true
    else Suffix(FileName(path)) in TEXT_EXTS
  }

  /** Every special file name already carries a text suffix. */
  lemma SpecialNamesHaveTextSuffix()
    ensures forall n :: n in SPECIAL_FILENAMES ==> Suffix(n) in TEXT_EXTS
  {
    SuffixOfExtension("project", ".pbxproj");
    assert "project" + ".pbxproj" == "project.pbxproj";
  }

  /** The special-file rule never overrides the skip rule, and adds nothing the
      extension rule does not already take: a path is processed exactly when
      none of its components is skipped and its suffix is a text extension. */
  lemma ShouldProcessByExtension(path: string)
    ensures ShouldProcess(path) <==>
      (forall k :: 0 <= k < |Components(path)| ==> Components(path)[k] !in SKIP_DIRS)
      && Suffix(FileName(path)) in TEXT_EXTS
  {
  }

  /** A file inside a skipped directory is never processed, whatever its name. */
  lemma SkippedDirWins(dirs: seq<string>, k: int, name: string)
    requires 0 <= k < |dirs| && dirs[k] in SKIP_DIRS
    requires forall j :: 0 <= j < |dirs| ==> '/' !in dirs[j]
    requires '/' !in name
    ensures !ShouldProcess(JoinWith("/", dirs + [name]))
  {
    var path := JoinWith("/", dirs + [name]);
    ComponentsOfJoin(dirs + [name]);
    assert Components(path)[k] == dirs[k];
  }

  /** Joining slash-free components with `/` and splitting again gives them back. */
  lemma ComponentsOfJoin(parts: seq<string>)
    requires parts != []
    requires forall j :: 0 <= j < |parts| ==> '/' !in parts[j]
    ensures Components(JoinWith("/", parts)) == parts
  {
    forall k, i | 0 <= k < |parts| && 0 <= i < |parts[k]| ensures !IsSlash(parts[k][i]) {
      assert parts[k][i] in parts[k];
    }
    SplitJoin('/', IsSlash, parts);
  }

  /** Python's `<` on strings: code-point order, a proper prefix first. */
  predicate LexLess(a: string, b: string)
    decreases |a|
  {
    b != [] && (a == [] || a[0] < b[0] || (a[0] == b[0] && LexLess(a[1..], b[1..])))
  }

  lemma {:induction false} LexLessIrreflexive(a: string)
    ensures !LexLess(a, a)
    decreases |a|
  {
    if a != [] {
      LexLessIrreflexive(a[1..]);
    }
  }

  lemma {:induction false} LexLessTransitive(a: string, b: string, c: string)
    requires LexLess(a, b) && LexLess(b, c)
    ensures LexLess(a, c)
    decreases |a|
  {
    if a != [] && a[0] == b[0] && b[0] == c[0] {
      LexLessTransitive(a[1..], b[1..], c[1..]);
    }
  }

  lemma {:induction false} LexLessTotal(a: string, b: string)
    ensures a == b || LexLess(a, b) || LexLess(b, a)
    decreases |a|
  {
    if a != [] && b != [] && a[0] == b[0] {
      LexLessTotal(a[1..], b[1..]);
      if a[1..] == b[1..] {
        assert a == [a[0]] + a[1..] && b == [b[0]] + b[1..];
      }
    }
  }

  /** `name` is the first of `names` in sorted order. */
  ghost predicate IsLeast(name: string, names: seq<string>) {
    name in names && forall k :: 0 <= k < |names| ==> !LexLess(names[k], name)
  }

  /** At most one name is the least. */
  lemma LeastUnique(a: string, b: string, names: seq<string>)
    requires IsLeast(a, names) && IsLeast(b, names)
    ensures a == b
  {
    LexLessTotal(a, b);
  }

  /** `locate_flutter_dir(slug)`.  `projects` lists, in any order, the names of
      the root's directories that contain `pubspec.yaml`; the result is the
      name of the chosen directory.  The slug's directory comes first, then the
      default `portalis`, then the first candidate in sorted order. */
  method LocateFlutterDir(slug: string, projects: seq<string>) returns (r: Result<string>)
    ensures slug in projects ==> r == Ok(slug)
    ensures slug !in projects && DEFAULT_DIRNAME in projects ==> r == Ok(DEFAULT_DIRNAME)
    ensures slug !in projects && DEFAULT_DIRNAME !in projects && projects != [] ==>
      r.Ok? && IsLeast(r.value, projects)
    ensures r.Err? <==> projects == []
    ensures r.Err? ==> r.msg == NOT_FOUND
  {
    if slug in projects {
      return Ok(slug);
    }
    if DEFAULT_DIRNAME in projects {
      return Ok(DEFAULT_DIRNAME);
    }
    if projects == [] {
      return Err(NOT_FOUND);
    }
    var best := projects[0];
    LexLessIrreflexive(best);
    var i := 1;
    while i < |projects|
      invariant 1 <= i <= |projects|
      invariant best in projects[..i]
      invariant forall k :: 0 <= k < i ==> !LexLess(projects[k], best)
    {
      if LexLess(projects[i], best) {
        forall k | 0 <= k < i ensures !LexLess(projects[k], projects[i]) {
          if LexLess(projects[k], projects[i]) {
            LexLessTransitive(projects[k], projects[i], best);
          }
        }
        LexLessIrreflexive(projects[i]);
        best := projects[i];
      }
      i := i + 1;
    }
    assert projects[..i] == projects;
    return Ok(best);
  }
}

=== FILE: text.dfy ===
/** ASCII character classes, case mapping and the small string utilities the
    migration script takes from Python's `str`: `lower`, `upper`, `capitalize`,
    `strip`, `startswith`, `in`, `split` and `join`.  Only ASCII is modelled:
    every character outside it is left alone by the case mappings and is not a
    word character. */
module Text {

  predicate IsLower(c: char) { 'a' <= c <= 'z' }
  predicate IsUpper(c: char) { 'A' <= c <= 'Z' }
  predicate IsDigit(c: char) { '0' <= c <= '9' }
  predicate IsAlnum(c: char) { IsLower(c) || IsUpper(c) || IsDigit(c) }

  /** The regex class `\w` on ASCII: letters, digits and the underscore. */
  predicate IsWordChar(c: char) { IsAlnum(c) || c == '_' }

  /** Python's `str.isspace` on ASCII: tab, newline, vertical tab, form feed,
      carriage return, the four information separators and the space. */
  predicate IsSpace(c: char) {
    var n := c as int;
    (9 <= n <= 13) || (28 <= n <= 32)
  }

  predicate IsSlash(c: char) { c == '/' }
  predicate IsBlank(c: char) { c == ' ' }
  predicate IsNotBlank(c: char) { c != ' ' }

  function ToLower(c: char): (r: char)
    ensures IsUpper(c) ==> IsLower(r) && r as int == c as int + 32
    ensures !IsUpper(c) ==> r == c
  {
    if IsUpper(c) then (c as int + 32) as char else c
  }

  function ToUpper(c: char): (r: char)
    ensures IsLower(c) ==> IsUpper(r) && r as int == c as int - 32
    ensures !IsLower(c) ==> r == c
  {
    if IsLower(c) then (c as int - 32) as char else c
  }

  /** Python's `str.lower` restricted to ASCII. */
  function Lower(s: string): (r: string)
    ensures |r| == |s|
    ensures forall i :: 0 <= i < |s| ==> r[i] == ToLower(s[i])
  {
    seq(|s|, i requires 0 <= i < |s| => ToLower(s[i]))
  }

  /** Python's `str.upper` restricted to ASCII. */
  function Upper(s: string): (r: string)
    ensures |r| == |s|
    ensures forall i :: 0 <= i < |s| ==> r[i] == ToUpper(s[i])
  {
    seq(|s|, i requires 0 <= i < |s| => ToUpper(s[i]))
  }

  lemma LowerAppend(a: string, b: string)
    ensures Lower(a + b) == Lower(a) + Lower(b)
  {
  }

  /** A string without upper-case letters is its own lower-case form. */
  lemma LowerIdentity(s: string)
    requires forall i :: 0 <= i < |s| ==> !IsUpper(s[i])
    ensures Lower(s) == s
  {
  }

  /** Python's `str.capitalize` restricted to ASCII: the first character
      upper-cased, the rest lower-cased. */
  function Capitalize(w: string): (r: string)
    ensures |r| == |w|
    ensures Lower(r) == Lower(w)
    ensures 0 < |w| ==> !IsLower(r[0])
    ensures forall i :: 0 < i < |r| ==> !IsUpper(r[i])
    ensures forall i :: 0 <= i < |r| ==> (r[i] == w[i] || IsAlnum(w[i]))
    ensures forall i :: 0 <= i < |r| ==> (IsAlnum(r[i]) <==> IsAlnum(w[i]))
  {
    if w == [] then [] else [ToUpper(w[0])] + Lower(w[1..])
  }

  /** The characters of `s` that satisfy `p`, in order. */
  function Keep(s: string, p: char -> bool): (r: string)
    ensures |r| <= |s|
    ensures forall i :: 0 <= i < |r| ==> p(r[i])
    ensures forall i :: 0 <= i < |r| ==> r[i] in s
    ensures (forall i :: 0 <= i < |s| ==> p(s[i])) ==> r == s
    ensures r == [] <==> forall i :: 0 <= i < |s| ==> !p(s[i])
  {
    if s == [] then []
    else
      var rest := Keep(s[1..], p);
      assert forall i :: 0 <= i < |rest| ==> rest[i] in s by {
        forall i | 0 <= i < |rest| ensures rest[i] in s {
          assert rest[i] in s[1..];
        }
      }
      if p(s[0]) then [s[0]] + rest else rest
  }

  lemma {:induction false} KeepAppend(a: string, b: string, p: char -> bool)
    ensures Keep(a + b, p) == Keep(a, p) + Keep(b, p)
    decreases |a|
  {
    if a == [] {
      assert a + b == b;
    } else {
      assert (a + b)[1..] == a[1..] + b;
      KeepAppend(a[1..], b, p);
    }
  }

  /** Filters that agree on every character of `s` keep the same characters. */
  lemma {:induction false} KeepAgree(s: string, p: char -> bool, q: char -> bool)
    requires forall i :: 0 <= i < |s| ==> p(s[i]) == q(s[i])
    ensures Keep(s, p) == Keep(s, q)
    decreases |s|
  {
    if s != [] {
      KeepAgree(s[1..], p, q);
    }
  }

  predicate StartsWith(s: string, prefix: string) {
    |prefix| <= |s| && s[..|prefix|] == prefix
  }

  /** `needle` occurs in `s` at index `i`. */
  predicate OccursAt(s: string, needle: string, i: int) {
    0 <= i <= |s| - |needle| && s[i..i + |needle|] == needle
  }

  /** Python's `needle in s`. */
  ghost predicate Occurs(s: string, needle: string) {
    exists i :: OccursAt(s, needle, i)
  }

  predicate NoDup<T(==)>(s: seq<T>) {
    forall i, j :: 0 <= i < j < |s| ==> s[i] != s[j]
  }

  /** `order` lists every element of the set `xs` exactly once: how a Python
      `for x in xs` over a set is modelled when its iteration order is unknown. */
  ghost predicate Enumerates(order: seq<string>, xs: set<string>) {
    NoDup(order) && (forall x :: x in order <==> x in xs)
  }

  /** Python's `sep.join(parts)`. */
  function JoinWith(sep: string, parts: seq<string>): (r: string)
  {
    if parts == [] then []
    else if |parts| == 1 then parts[0]
    else parts[0] + sep + JoinWith(sep, parts[1..])
  }

  lemma JoinWithCons(sep: string, w: string, rest: seq<string>)
    ensures JoinWith(sep, [w] + rest) == w + (if rest == [] then [] else sep + JoinWith(sep, rest))
  {
    assert ([w] + rest)[1..] == rest;
  }

  /** Concatenation (`"".join`) of a list with a first part. */
  lemma ConcatCons(w: string, rest: seq<string>)
    ensures JoinWith([], [w] + rest) == w + JoinWith([], rest)
  {
    JoinWithCons([], w, rest);
    if rest == [] {
      assert w + [] == w;
    }
  }

  /** Every character of a join comes from a part or from the separator. */
  lemma {:induction false} JoinWithChars(sep: string, parts: seq<string>, c: char)
    requires c in JoinWith(sep, parts)
    ensures c in sep || exists k :: 0 <= k < |parts| && c in parts[k]
    decreases |parts|
  {
    if |parts| > 1 {
      var rest := JoinWith(sep, parts[1..]);
      if c !in parts[0] && c !in sep {
        assert c in rest;
        JoinWithChars(sep, parts[1..], c);
        var k :| 0 <= k < |parts[1..]| && c in parts[1..][k];
        assert c in parts[k + 1];
      }
    } else {
      assert c in parts[0];
    }
  }

  /** A join of at least one non-empty part is non-empty. */
  lemma JoinWithNonEmpty(sep: string, parts: seq<string>)
    requires parts != [] && parts[0] != []
    ensures JoinWith(sep, parts) != []
  {
  }

  /** Python's `s.split(c)` for a one-character separator, generalised to a
      character class: the pieces between separators, empty pieces included. */
  function SplitWhere(s: string, isSep: char -> bool): (parts: seq<string>)
    ensures |parts| >= 1
    ensures forall k, i :: 0 <= k < |parts| && 0 <= i < |parts[k]| ==> !isSep(parts[k][i])
    decreases |s|
  {
    if s == [] then [[]]
    else
      var rest := SplitWhere(s[1..], isSep);
      if isSep(s[0]) then [[]] + rest
      else
        var first := [s[0]] + rest[0];
        assert forall i :: 0 <= i < |first| ==> !isSep(first[i]) by {
          forall i | 0 <= i < |first| ensures !isSep(first[i]) {
            if i > 0 { assert first[i] == rest[0][i - 1]; }
          }
        }
        [first] + rest[1..]
  }

  /** Splitting at the first separator, at index `n`, puts the text before it
      first, then whatever splitting the text after it gives. */
  lemma SplitAtFirst(s: string, n: nat, isSep: char -> bool)
    requires n <= |s| && (n == |s| || isSep(s[n]))
    requires forall i :: 0 <= i < n ==> !isSep(s[i])
    ensures SplitWhere(s, isSep) == [s[..n]] + (if n == |s| then [] else SplitWhere(s[n + 1..], isSep))
  {
    if n == |s| {
      assert s[..n] == s;
      SplitFree(s, isSep);
    } else {
      AroundIndex(s, n);
      SplitAfterFree(s[..n], s[n], s[n + 1..], isSep);
    }
  }

  /** A text is what comes before index `n`, the character there, and what
      follows. */
  lemma AroundIndex(s: string, n: nat)
    requires n < |s|
    ensures s == s[..n] + [s[n]] + s[n + 1..]
    ensures forall i :: 0 <= i < n ==> s[..n][i] == s[i]
  {
  }

  /** Splitting a path on `/` and joining the pieces with `/` gives back the path. */
  lemma {:induction false} SplitJoinRoundTrip(s: string)
    ensures JoinWith("/", SplitWhere(s, IsSlash)) == s
    decreases |s|
  {
    if s != [] {
      SplitJoinRoundTrip(s[1..]);
      if s[0] == '/' {
        JoinAfterSlash(s);
      } else {
        JoinAfterChar(s);
      }
    }
  }

  lemma JoinAfterSlash(s: string)
    requires s != [] && s[0] == '/'
    requires JoinWith("/", SplitWhere(s[1..], IsSlash)) == s[1..]
    ensures JoinWith("/", SplitWhere(s, IsSlash)) == s
  {
    var rest := SplitWhere(s[1..], IsSlash);
    assert SplitWhere(s, IsSlash) == [[]] + rest;
    JoinWithCons("/", [], rest);
    assert s == "/" + s[1..];
  }

  lemma JoinAfterChar(s: string)
    requires s != [] && s[0] != '/'
    requires JoinWith("/", SplitWhere(s[1..], IsSlash)) == s[1..]
    ensures JoinWith("/", SplitWhere(s, IsSlash)) == s
  {
    var rest := SplitWhere(s[1..], IsSlash);
    assert SplitWhere(s, IsSlash) == [[s[0]] + rest[0]] + rest[1..];
    JoinExtendFirst("/", s[0], rest);
    assert s == [s[0]] + s[1..];
  }

  /** Putting a character in front of the first part puts it in front of the
      join. */
  lemma JoinExtendFirst(sep: string, c: char, parts: seq<string>)
    requires parts != []
    ensures JoinWith(sep, [[c] + parts[0]] + parts[1..]) == [c] + JoinWith(sep, parts)
  {
    var tail := if parts[1..] == [] then [] else sep + JoinWith(sep, parts[1..]);
    JoinWithCons(sep, [c] + parts[0], parts[1..]);
    assert parts == [parts[0]] + parts[1..];
    JoinWithCons(sep, parts[0], parts[1..]);
    assert [c] + parts[0] + tail == [c] + (parts[0] + tail);
  }

  /** A text free of separators splits into itself alone. */
  lemma {:induction false} SplitFree(w: string, isSep: char -> bool)
    requires forall i :: 0 <= i < |w| ==> !isSep(w[i])
    ensures SplitWhere(w, isSep) == [w]
    decreases |w|
  {
    if w != [] {
      SplitFree(w[1..], isSep);
      assert w == [w[0]] + w[1..];
    }
  }

  /** A separator-free text followed by a separator is the first piece. */
  lemma {:induction false} SplitAfterFree(w: string, sep: char, rest: string, isSep: char -> bool)
    requires isSep(sep)
    requires forall i :: 0 <= i < |w| ==> !isSep(w[i])
    ensures SplitWhere(w + [sep] + rest, isSep) == [w] + SplitWhere(rest, isSep)
    decreases |w|
  {
    if w == [] {
      assert w + [sep] + rest == [sep] + rest;
      assert ([sep] + rest)[1..] == rest;
    } else {
      SplitAfterFree(w[1..], sep, rest, isSep);
      assert (w + [sep] + rest)[1..] == w[1..] + [sep] + rest;
      assert w == [w[0]] + w[1..];
    }
  }

  /** Joining separator-free pieces with a separator and splitting again gives
      the pieces back. */
  lemma {:induction false} SplitJoin(sep: char, isSep: char -> bool, parts: seq<string>)
    requires isSep(sep) && parts != []
    requires forall k, i :: 0 <= k < |parts| && 0 <= i < |parts[k]| ==> !isSep(parts[k][i])
    ensures SplitWhere(JoinWith([sep], parts), isSep) == parts
    decreases |parts|
  {
    if |parts| == 1 {
      SplitFree(parts[0], isSep);
    } else {
      var rest := JoinWith([sep], parts[1..]);
      SplitJoin(sep, isSep, parts[1..]);
      SplitAfterFree(parts[0], sep, rest, isSep);
      assert parts == [parts[0]] + parts[1..];
    }
  }

  /** The non-empty strings of `parts`, in order (Python's `if part` filter). */
  function NonEmpty(parts: seq<string>): (r: seq<string>)
    ensures forall k :: 0 <= k < |r| ==> r[k] != [] && r[k] in parts
    ensures |r| <= |parts|
  {
    if parts == [] then []
    else if parts[0] == [] then NonEmpty(parts[1..])
    else [parts[0]] + NonEmpty(parts[1..])
  }

  function TrimStart(s: string): (r: string)
    ensures |r| <= |s| && r == s[|s| - |r|..]
    ensures r == [] || !IsSpace(r[0])
    ensures forall i :: 0 <= i < |s| - |r| ==> IsSpace(s[i])
  {
    if s != [] && IsSpace(s[0]) then
      var r := TrimStart(s[1..]);
      assert r == s[|s| - |r|..] by {
        assert s[1..][|s| - 1 - |r|..] == s[|s| - |r|..];
      }
      assert forall i :: 0 <= i < |s| - |r| ==> IsSpace(s[i]) by {
        forall i | 0 <= i < |s| - |r| ensures IsSpace(s[i]) {
          if i > 0 { assert s[i] == s[1..][i - 1]; }
        }
      }
      r
    else s
  }

  function TrimEnd(s: string): (r: string)
    ensures |r| <= |s| && r == s[..|r|]
    ensures r == [] || !IsSpace(r[|r| - 1])
    ensures forall i :: |r| <= i < |s| ==> IsSpace(s[i])
  {
    if s != [] && IsSpace(s[|s| - 1]) then
      var r := TrimEnd(s[..|s| - 1]);
      assert r == s[..|r|] by {
        assert s[..|s| - 1][..|r|] == s[..|r|];
      }
      assert forall i :: |r| <= i < |s| ==> IsSpace(s[i]) by {
        forall i | |r| <= i < |s| ensures IsSpace(s[i]) {
          if i < |s| - 1 { assert s[i] == s[..|s| - 1][i]; }
        }
      }
      r
    else s
  }

  /** `r` is the infix of `s` starting at `lo`, and everything of `s` outside
      it is whitespace. */
  ghost predicate StrippedAt(s: string, r: string, lo: int) {
    0 <= lo <= |s| - |r| && r == s[lo..lo + |r|]
    && (forall i :: 0 <= i < lo ==> IsSpace(s[i]))
    && (forall i :: lo + |r| <= i < |s| ==> IsSpace(s[i]))
  }

  /** Python's `str.strip()` with no argument, on ASCII whitespace: the infix of
      `s` that neither starts nor ends with whitespace, everything cut away being
      whitespace. */
  function Strip(s: string): (r: string)
    ensures r == [] || (!IsSpace(r[0]) && !IsSpace(r[|r| - 1]))
    ensures exists lo :: StrippedAt(s, r, lo)
  {
    TrimBothStripped(s);
    TrimStart(TrimEnd(s))
  }

  /** A text without whitespace is its own strip. */
  lemma NoSpaceStripped(s: string)
    ensures (forall i :: 0 <= i < |s| ==> !IsSpace(s[i])) ==> Strip(s) == s
  {
    var r := Strip(s);
    var lo :| StrippedAt(s, r, lo);
    if s != [] && forall i :: 0 <= i < |s| ==> !IsSpace(s[i]) {
      assert !IsSpace(s[0]) && !IsSpace(s[|s| - 1]);
      assert lo == 0 && |r| == |s|;
      assert s[0..|s|] == s;
    }
  }

  lemma TrimBothStripped(s: string)
    ensures StrippedAt(s, TrimStart(TrimEnd(s)), |TrimEnd(s)| - |TrimStart(TrimEnd(s))|)
  {
    var t := TrimEnd(s);
    var r := TrimStart(t);
    PrefixInfix(s, t, r, |t| - |r|);
  }

  /** An infix `r` of a prefix `t` of `s`, preceded in `t` by whitespace only. */
  lemma PrefixInfix(s: string, t: string, r: string, lo: int)
    requires |t| <= |s| && t == s[..|t|]
    requires 0 <= lo <= |t| && r == t[lo..]
    requires forall i :: 0 <= i < lo ==> IsSpace(t[i])
    ensures r == s[lo..lo + |r|]
    ensures forall i :: 0 <= i < lo ==> IsSpace(s[i])
  {
    forall i | 0 <= i < lo ensures IsSpace(s[i]) {
      assert s[i] == t[i];
    }
  }
}

=== FILE: word_replace.dfy ===
/** `replace_portalis_word`: `re.sub(r"\bPortalis\b", rep, text)` on ASCII.  The
    regex engine scans left to right; a match needs the eight letters of
    `Portalis`, no word character just before them and no word character just
    after them.  The scan below carries whether the character before the
    current position (in the original text) is a word character. */
module WordReplace {
  import opened Text

  const PORTALIS: string := "Portalis"

  /** `\bPortalis\b` matches at the front of `s`, given whether the character
      before `s` is a word character. */
  predicate MatchHere(afterWord: bool, s: string) {
    !afterWord && StartsWith(s, PORTALIS) && (|s| == |PORTALIS| || !IsWordChar(s[|PORTALIS|]))
  }

  function Scan(afterWord: bool, s: string, rep: string): (r: string)
    decreases |s|
  {
    if s == [] then []
    else if MatchHere(afterWord, s) then rep + Scan(true, s[|PORTALIS|..], rep)
    else [s[0]] + Scan(IsWordChar(s[0]), s[1..], rep)
  }

  /** A whole-word `Portalis` at index `i` of `s`, the character before `s`
      being a word character when `afterWord` holds. */
  ghost predicate WholeWordAt(afterWord: bool, s: string, i: int) {
    OccursAt(s, PORTALIS, i)
    && (if i == 0 then !afterWord else !IsWordChar(s[i - 1]))
    && (i + |PORTALIS| == |s| || !IsWordChar(s[i + |PORTALIS|]))
  }

  ghost predicate HasWholeWord(afterWord: bool, s: string) {
    exists i :: WholeWordAt(afterWord, s, i)
  }

  /** Every letter of `Portalis` is a word character. */
  lemma PortalisIsWord()
    ensures forall k :: 0 <= k < |PORTALIS| ==> IsWordChar(PORTALIS[k])
  {
  }

  lemma MatchHereIsWholeWordAtZero(afterWord: bool, s: string)
    ensures MatchHere(afterWord, s) <==> WholeWordAt(afterWord, s, 0)
  {
  }

  /** Away from the front, whole-word matches of `s` are those of its tail. */
  lemma WholeWordInTail(afterWord: bool, s: string, i: int)
    requires s != [] && i >= 0
    ensures WholeWordAt(afterWord, s, i + 1) <==> WholeWordAt(IsWordChar(s[0]), s[1..], i)
  {
    if 0 <= i + 1 <= |s| - |PORTALIS| {
      assert s[1..][i..i + |PORTALIS|] == s[i + 1..i + 1 + |PORTALIS|];
    }
  }

  lemma {:induction false} NoMatchIdentity(afterWord: bool, s: string, rep: string)
    requires !HasWholeWord(afterWord, s)
    ensures Scan(afterWord, s, rep) == s
    decreases |s|
  {
    if s != [] {
      MatchHereIsWholeWordAtZero(afterWord, s);
      forall i | 0 <= i ensures !WholeWordAt(IsWordChar(s[0]), s[1..], i) {
        WholeWordInTail(afterWord, s, i);
      }
      NoMatchIdentity(IsWordChar(s[0]), s[1..], rep);
    }
  }

  lemma {:induction false} SameWordIdentity(afterWord: bool, s: string)
    ensures Scan(afterWord, s, PORTALIS) == s
    decreases |s|
  {
    if s != [] {
      if MatchHere(afterWord, s) {
        SameWordIdentity(true, s[|PORTALIS|..]);
        assert s == s[..|PORTALIS|] + s[|PORTALIS|..];
      } else {
        SameWordIdentity(IsWordChar(s[0]), s[1..]);
        assert s == [s[0]] + s[1..];
      }
    }
  }

  lemma {:induction false} ScanLengthMonotone(afterWord: bool, s: string, rep: string)
    ensures |rep| >= |PORTALIS| ==> |Scan(afterWord, s, rep)| >= |s|
    ensures |rep| <= |PORTALIS| ==> |Scan(afterWord, s, rep)| <= |s|
    decreases |s|
  {
    if s != [] {
      if MatchHere(afterWord, s) {
        ScanLengthMonotone(true, s[|PORTALIS|..], rep);
      } else {
        ScanLengthMonotone(IsWordChar(s[0]), s[1..], rep);
      }
    }
  }

  lemma {:induction false} MatchChanges(afterWord: bool, s: string, rep: string)
    requires rep != PORTALIS && HasWholeWord(afterWord, s)
    ensures Scan(afterWord, s, rep) != s
    decreases |s|
  {
    var i :| WholeWordAt(afterWord, s, i);
    var r := Scan(afterWord, s, rep);
    if MatchHere(afterWord, s) {
      var rest := s[|PORTALIS|..];
      assert r == rep + Scan(true, rest, rep);
      ScanLengthMonotone(true, rest, rep);
      if |rep| == |PORTALIS| {
        assert r[..|rep|] == rep;
        assert s[..|PORTALIS|] == PORTALIS;
      } else if |rep| > |PORTALIS| {
        assert |r| > |s|;
      } else {
        assert |r| < |s|;
      }
    } else {
      MatchHereIsWholeWordAtZero(afterWord, s);
      assert i != 0;
      WholeWordInTail(afterWord, s, i - 1);
      MatchChanges(IsWordChar(s[0]), s[1..], rep);
      assert r[1..] == Scan(IsWordChar(s[0]), s[1..], rep);
    }
  }

  lemma ScanUnchangedIff(afterWord: bool, s: string, rep: string)
    ensures Scan(afterWord, s, rep) == s <==> (rep == PORTALIS || !HasWholeWord(afterWord, s))
  {
    if rep == PORTALIS {
      SameWordIdentity(afterWord, s);
    } else if HasWholeWord(afterWord, s) {
      MatchChanges(afterWord, s, rep);
    } else {
      NoMatchIdentity(afterWord, s, rep);
    }
  }

  /** `replace_portalis_word(text, rep)`: the text comes back unchanged exactly
      when it holds no whole-word `Portalis` or the replacement is `Portalis`
      itself. */
  function ReplacePortalisWord(text: string, rep: string): (r: string)
    ensures r == text <==> (rep == PORTALIS || !HasWholeWord(false, text))
  {
    ScanUnchangedIff(false, text, rep);
    Scan(false, text, rep)
  }

  /** Whether `Portalis` matches at the front does not depend on anything
      after a non-word character that follows the first character. */
  lemma MatchHereSplit(afterWord: bool, a: string, c: char, b: string)
    requires !IsWordChar(c)
    ensures MatchHere(afterWord, a + [c] + b) <==> MatchHere(afterWord, a)
  {
    var t := a + [c] + b;
    var n := |PORTALIS|;
    PortalisIsWord();
    if MatchHere(afterWord, t) {
      assert forall k :: 0 <= k < n ==> t[k] == PORTALIS[k];
      assert !IsWordChar(t[|a|]);
      assert |a| >= n;
      assert a[..n] == t[..n];
      assert |a| == n || a[n] == t[n];
    }
    if MatchHere(afterWord, a) {
      assert t[..n] == a[..n];
      assert t[n] == (if |a| == n then c else a[n]);
    }
  }

  /** A non-word character splits the job: the scan on either side of it is
      independent, so `Portalis` glued to a word character on one side is
      never touched by what happens on the other side. */
  lemma {:induction false} ScanSplitsAtNonWord(afterWord: bool, a: string, c: char, b: string, rep: string)
    requires !IsWordChar(c)
    ensures Scan(afterWord, a + [c] + b, rep) == Scan(afterWord, a, rep) + [c] + Scan(false, b, rep)
    decreases |a|
  {
    var t := a + [c] + b;
    PortalisIsWord();
    if a == [] {
      assert t == [c] + b;
      assert t[0] == c && !IsWordChar(c);
      assert |t| < |PORTALIS| || t[..|PORTALIS|][0] == c;
      assert !MatchHere(afterWord, t);
      assert t[1..] == b;
    } else {
      MatchHereSplit(afterWord, a, c, b);
      if MatchHere(afterWord, t) {
        assert t[|PORTALIS|..] == a[|PORTALIS|..] + [c] + b;
        ScanSplitsAtNonWord(true, a[|PORTALIS|..], c, b, rep);
      } else {
        assert t[1..] == a[1..] + [c] + b;
        ScanSplitsAtNonWord(IsWordChar(a[0]), a[1..], c, b, rep);
      }
    }
  }

  /** On a whole text: `Portalis` is replaced independently in the pieces on
      either side of any non-word character. */
  lemma ReplaceSplitsAtNonWord(a: string, c: char, b: string, rep: string)
    requires !IsWordChar(c)
    ensures ReplacePortalisWord(a + [c] + b, rep)
         == ReplacePortalisWord(a, rep) + [c] + ReplacePortalisWord(b, rep)
  {
    ScanSplitsAtNonWord(false, a, c, b, rep);
  }

  /** A text made only of word characters holds a whole-word `Portalis` only
      when it is `Portalis` itself: anywhere else an occurrence is glued to a
      word character on one side. */
  lemma GluedWordKept(w: string, rep: string)
    requires forall i :: 0 <= i < |w| ==> IsWordChar(w[i])
    requires w != PORTALIS
    ensures ReplacePortalisWord(w, rep) == w
  {
    assert w[0..|w|] == w;
    forall i ensures !WholeWordAt(false, w, i) {
      if 0 < i < |w| {
        assert IsWordChar(w[i - 1]);
      } else if i == 0 && |PORTALIS| < |w| {
        assert IsWordChar(w[|PORTALIS|]);
      }
    }
  }

  /** `Portalis` glued to a word character on either side is left intact:
      `PortalisX`, `xPortalis` and `Portalis_app`. */
  lemma GluedOccurrencesKept(rep: string)
    ensures ReplacePortalisWord(PORTALIS + ['X'], rep) == PORTALIS + ['X']
    ensures ReplacePortalisWord(['x'] + PORTALIS, rep) == ['x'] + PORTALIS
    ensures ReplacePortalisWord(PORTALIS + ['_', 'a', 'p', 'p'], rep) == PORTALIS + ['_', 'a', 'p', 'p']
  {
    PortalisIsWord();
    GluedWordKept(PORTALIS + ['X'], rep);
    var front := ['x'] + PORTALIS;
    forall i | 0 <= i < |front| ensures IsWordChar(front[i]) {
      if i > 0 { assert front[i] == PORTALIS[i - 1]; }
    }
    GluedWordKept(front, rep);
    GluedWordKept(PORTALIS + ['_', 'a', 'p', 'p'], rep);
  }

  /** `Portalis` alone is one whole word. */
  lemma ScanWordAlone(rep: string)
    ensures Scan(false, PORTALIS, rep) == rep
  {
    assert MatchHere(false, PORTALIS);
    assert PORTALIS[|PORTALIS|..] == [];
  }

  /** A whole-word occurrence after a space and before punctuation is
      replaced, the text before it handled on its own. */
  lemma WholeWordReplaced(pre: string, rep: string)
    ensures ReplacePortalisWord(pre + [' '] + PORTALIS + ['!'], rep)
         == ReplacePortalisWord(pre, rep) + [' '] + rep + ['!']
  {
    var word := PORTALIS + ['!'];
    ScanWordAlone(rep);
    ScanSplitsAtNonWord(false, PORTALIS, '!', [], rep);
    assert word + [] == word;
    ScanSplitsAtNonWord(false, pre, ' ', word, rep);
    assert pre + [' '] + PORTALIS + ['!'] == pre + [' '] + word;
  }
}

=== FILE: wrappers.dfy ===
/** Failure-carrying results used where the migration script raises `SystemExit`,
    and the optional command-line value of `--app-title`. */
module Wrappers {

  datatype Option<+T> = None | Some(value: T)

  /** `Err` carries the message the script exits with. */
  datatype Result<+T> = Ok(value: T) | Err(msg: string)
}
